=== FILE: README.md ===
# Contact dashboard decision logic, modelled in Dafny

This project models the decision logic of a demo dashboard for a bankruptcy law
practice. Each contact (a client) has a case context: conversation entries,
pending documents, forms and invoices, notes, the date of the client's last
response, and a follow-up count. The model covers these parts:

- **Status classification** (`Status`). `calculateStatus` is a three-way
  priority cascade.
  - `needs-attention`: an overdue invoice, or at least three follow-ups and
    ten days without a response.
  - `waiting-for-you`: the client's latest response is later than the latest
    attorney message or AI follow-up.
  - `waiting-for-them`: otherwise.
- **Date and name helpers** (`Utils`): `daysBetween` and `getInitials`.
- **Summary generation** (`GenerateSummary`).
  - Without a model credential, the canned summary is returned. Its escalation
    message is kept only for contacts that need attention.
  - Otherwise, the prompt text is built and a stream is started.
- **Summary panel and session cache** (`AiSummary`).
  - Where the cache is read and written.
  - How a stream of partial results is consumed.
  - What happens on errors.
  - When the panel uses the cache and when it generates again.
- **Data access** (`ContactsData`): list the contacts, find one by id and
  attach its status, and look up a canned summary.
- **Overview cards**:
  - the pending-items card (`PendingItemsView`);
  - the newest-five follow-up history (`FollowupHistory`).
- **Navigation**:
  - the contact list's search filter, total count and highlighted entry
    (`ContactSidebar`);
  - the contact tabs (`TabNavigation`);
  - the icon rail (`IconRail`);
  - the mobile navigation drawer (`MainNavigation`).

Conventions:

- Instants are integer milliseconds (`Date.getTime()`).
- The current instant `now` is a parameter.
- A missing last response is `None`. The source turns it into `Infinity` days,
  so it counts as "at least ten days".
- Amounts and counters are integers.
- Strings are sequences of characters. Upper and lower case are the ASCII
  mappings.
- `Strings` and `Lists` hold the JavaScript operations the code relies on:
  - `includes`, `startsWith`, `toLowerCase` and `toUpperCase`;
  - `split` and `join`;
  - number-to-text in a template literal;
  - `filter` and `slice`.
- Whether a model credential is configured (`hasKey`) is a parameter.
- So are whether a session-storage read or write fails (`readFails`,
  `writeFails`) and what the summary call returns (`CallOutcome`).

Files:

| file | module |
|---|---|
| wrappers.dfy | Wrappers: `Option` |
| strings.dfy | Strings: prefix, containment, case, decimal text, join, split, concatenation |
| lists.dfy | Lists: `filter`, `slice(-n)` |
| types.dfy | Types: the records of the dashboard |
| utils.dfy | Utils: `daysBetween`, `getInitials` |
| status.dfy | Status: `checkUnreviewedClientAction`, `calculateStatus` |
| generate_summary.dfy | GenerateSummary: `generateContactSummary`, `buildPrompt` |
| ai_summary.dfy | AiSummary: the cache, `loadSummary`, mount and refresh |
| contacts_data.dfy | ContactsData: `getContacts`, `getContactById`, `getContactSummary` |
| pending_items.dfy | PendingItemsView: the pending-items card |
| followup_history.dfy | FollowupHistory: the follow-up history card |
| contact_sidebar.dfy | ContactSidebar: the contact list |
| tab_navigation.dfy | TabNavigation: the contact tabs |
| icon_rail.dfy | IconRail: the icon rail |
| main_navigation.dfy | MainNavigation: the navigation drawer |

## Model

| member | source | states |
|---|---|---|
| Strings.Split | src/lib/utils.ts:19 | `split(" ")` yields at least one part, and no part contains the separator |
| Strings.JoinOfSplit | src/lib/utils.ts:19 | joining the parts of a split with the separator gives back the input |
| Strings.SplitOfJoin | src/lib/utils.ts:19 | splitting words that contain no separator, after joining them with it, gives back the words |
| Strings.IntToString | src/actions/generate-summary.ts:75 | a number in a template literal is rendered as decimal digits with no leading zero, with a leading `-` when negative, and those digits read back as the number |
| Strings.CanonicalDigitsUnique | src/actions/generate-summary.ts:75 | the rendering of a number is the only digit string without a leading zero that reads back as that number |
| Strings.JoinEmptyIff | src/actions/generate-summary.ts:85 | with a non-empty separator, `join` is empty exactly for no notes or a single empty note |
| Strings.LowerOfUpper | src/components/contact-sidebar.tsx:27 | lower-casing after upper-casing equals lower-casing |
| Lists.Filter | src/components/contact-sidebar.tsx:26-32 | `filter` keeps exactly the elements passing the test, each as often as it occurs, as an order-preserving subsequence, never growing |
| Lists.LastN | src/actions/generate-summary.ts:67 | `slice(-n)` is the suffix of length `min(n, length)` |
| Utils.DaysBetween | src/lib/utils.ts:8-11 | the day count `d` satisfies `d*86400000 <= abs(date2-date1) < (d+1)*86400000`, that is the floor of the distance in days |
| Utils.DaysBetweenUnique | src/lib/utils.ts:8-11 | any `d` bracketing the distance that way is the day count |
| Utils.DaysBetweenSymmetric | src/lib/utils.ts:9 | the order of the two instants does not matter |
| Utils.DaysBetweenSelf | src/lib/utils.ts:8-11 | an instant is zero days from itself |
| Utils.NineDaysApart | src/lib/__tests__/utils.test.ts:5-9 | instants exactly nine days apart give 9 |
| Utils.AtLeastDaysIff | src/lib/utils.ts:8-11 | at least `k` whole days exactly when the distance is at least `k` days' worth of milliseconds |
| Utils.FirstLetters | src/lib/utils.ts:20 | at most one letter per part, because an empty part contributes nothing |
| Utils.FirstLettersSkipsEmpty | src/lib/utils.ts:19-21 | an empty part, from a doubled, leading or trailing space, contributes no letter: the result equals that of the non-empty parts alone |
| Utils.InitialsOfNonEmptyParts | src/lib/utils.ts:17-23 | for any name, the initials are the upper-cased first letters of its non-empty space-separated parts, one each, in order |
| Utils.GetInitials | src/lib/utils.ts:17-23 | the initials are never more than the space-separated parts |
| Utils.InitialsOfWords | src/lib/utils.ts:17-23 | for non-empty words separated by single spaces, the initials are each word's upper-cased first letter, in order |
| Utils.FirstLettersOfWords | src/lib/utils.ts:20 | with no empty part, one first letter per part, in order |
| Utils.InitialsOfTwo | src/lib/utils.ts:17-23 | two space-free words separated by one space give their two upper-cased first letters |
| Utils.InitialsOfThree | src/lib/utils.ts:17-23 | three space-free words separated by single spaces give their three upper-cased first letters |
| Utils.InitialsOfOneWord | src/lib/__tests__/utils.test.ts:28-30 | "Maria" gives "M" |
| Utils.InitialsOfTwoWords | src/lib/__tests__/utils.test.ts:24-26 | "Maria Garcia" gives "MG" |
| Utils.InitialsOfThreeWords | src/lib/__tests__/utils.test.ts:32-34 | "Maria Elena Garcia" gives "MEG" |
| Status.ClientActions | src/lib/status.ts:6-8 | keeps exactly the client responses, each occurrence, in their original order |
| Status.AttorneyActions | src/lib/status.ts:17-19 | keeps exactly the attorney messages and AI follow-ups, each occurrence, in their original order |
| Status.LatestFrom | src/lib/status.ts:11-13 | the `reduce` returns one of the entries, and no entry is later than it |
| Status.MostRecent | src/lib/status.ts:9-14 | none exactly for an empty list, otherwise an entry no other entry is later than |
| Status.CheckUnreviewedClientAction | src/lib/status.ts:4-32 | true exactly when some client response is strictly later than every attorney message and AI follow-up; this covers "no attorney-side entry at all" |
| Status.StaleIff | src/lib/status.ts:35-41 | "never responded, or at least 10 whole days" is the same as "never responded, or at least 10 days of milliseconds" |
| Status.DaysSinceResponse | src/lib/status.ts:35-37 | none exactly when the client never responded; otherwise the whole days bracketing the distance to `now` |
| Status.CalculateStatus | src/lib/status.ts:34-56 | `needs-attention` exactly when rule 1 holds; `waiting-for-you` exactly when rule 1 fails and a client action is unreviewed; `waiting-for-them` exactly when both fail |
| Status.OverdueNeedsAttention | src/lib/status.ts:40-45 | an overdue invoice always gives `needs-attention` |
| Status.StaleFollowUpsNeedAttention | src/lib/status.ts:35-44 | three follow-ups and at least ten days since the response give `needs-attention` |
| Status.NeverRespondedNeedsAttention | src/lib/status.ts:35-37 | three follow-ups and no response ever give `needs-attention` |
| Status.FewFollowUpsNeverNeedAttention | src/lib/status.ts:40-45 | below three follow-ups and with no overdue invoice, the status is never `needs-attention`, whatever the silence |
| Status.UnreviewedActionOutranked | src/lib/status.ts:40-52 | with an unreviewed client action, rule 1 still wins; otherwise the status is `waiting-for-you` |
| Status.EmptyHistoryWaitsForThem | src/lib/status.ts:55 | no conversations and no rule-1 condition give `waiting-for-them` |
| Status.EqualTimestampsNotUnreviewed | src/lib/status.ts:28-31 | a client response and an attorney entry at the same instant are not unreviewed, in either order |
| Status.LoneClientResponseUnreviewed | src/lib/status.ts:28 | a lone client response is unreviewed |
| Status.SystemEntriesIgnored | src/lib/status.ts:6-19 | inserting a system notification anywhere does not change the check |
| Status.ElevenDaysScenario | src/lib/__tests__/status.test.ts:25-32 | a response eleven days ago gives `needs-attention` with three follow-ups, and `waiting-for-them` with one |
| Status.LoneResponseWaitsForYou | src/lib/__tests__/status.test.ts:45-59 | a lone client response, with no follow-ups and nothing overdue, gives `waiting-for-you` |
| Status.FreshContactWaitsForThem | src/lib/__tests__/status.test.ts:61-63 | a fresh contact with no history gives `waiting-for-them` |
| GenerateSummary.LastResponseField | src/actions/generate-summary.ts:62-64 | `never responded` exactly when there is no response; otherwise decimal digits with no leading zero that read back as `daysBetween(last, now)` |
| GenerateSummary.RecentConversations | src/actions/generate-summary.ts:66-67 | the last `min(5, n)` entries, in array order |
| GenerateSummary.RenderEntry | src/actions/generate-summary.ts:68 | the entry's type in brackets, a space, and then exactly its content |
| GenerateSummary.RecentConversationsBlock | src/actions/generate-summary.ts:66-69 | the block is empty without conversations, and contains `[type] content` for each of the last five entries |
| GenerateSummary.FormsLine | src/actions/generate-summary.ts:82 | `Complete` exactly when the forms are complete, `Incomplete` exactly when not |
| GenerateSummary.ClientLine | src/actions/generate-summary.ts:73 | the client's name right after `Client: `, followed by exactly ` (Chapter {chapter})` |
| GenerateSummary.LastResponseLine | src/actions/generate-summary.ts:74 | the last-response field sits exactly between `Last response: ` and ` days ago` |
| GenerateSummary.FollowUpsLine | src/actions/generate-summary.ts:75 | the follow-up count follows `Follow-ups sent: `, in decimal with no leading zero when it is not negative |
| GenerateSummary.DocumentsLine | src/actions/generate-summary.ts:81 | `uploaded/required` sits exactly between `- Documents: ` and ` uploaded` |
| GenerateSummary.InvoicesLine | src/actions/generate-summary.ts:83 | the unpaid amount `total - paid` followed by ` unpaid`, then ` (OVERDUE)` exactly when the invoice is overdue and nothing else |
| GenerateSummary.NotesField | src/actions/generate-summary.ts:85 | the notes joined by `; ` when that is non-empty; `None` for no notes or a single empty note |
| GenerateSummary.NotesLine | src/actions/generate-summary.ts:85 | the notes field follows `Notes: ` |
| GenerateSummary.TemplateCarriesContactSlots | src/actions/generate-summary.ts:71-78 | whatever fills them, the client, last-response, follow-up and conversation slots all appear in the text |
| GenerateSummary.TemplateCarriesCaseSlots | src/actions/generate-summary.ts:80-85 | whatever fills them, the documents, forms, invoices and notes slots all appear in the text |
| GenerateSummary.BuildPrompt | src/actions/generate-summary.ts:61-99 | the prompt opens with the fixed introduction; it ends in the escalation request exactly when the status is `needs-attention`, and in `Do not include an escalation message.` exactly when it is not |
| GenerateSummary.PromptCarriesFields | src/actions/generate-summary.ts:71-85 | the prompt contains the client, last-response, follow-up, conversation, documents, forms, invoices and notes lines of the contact |
| GenerateSummary.EndingDecidesEscalation | src/actions/generate-summary.ts:92-98 | the two possible endings exclude each other |
| GenerateSummary.StaticSummary | src/actions/generate-summary.ts:24-31 | the canned summary; its escalation is present only for `needs-attention`, where it is the canned one |
| GenerateSummary.GenerateContactSummary | src/actions/generate-summary.ts:20-59 | without a credential, the canned summary, with its escalation only for `needs-attention` contacts, when the table has an entry for the id, and the `TypeError` of reading `summary` of a missing entry when it has none; with a credential, a stream from the prompt for the computed status, whose ending asks for escalation exactly under rule 1 |
| AiSummary.CacheKey | src/components/overview/ai-summary.tsx:17 | the key is `ai-summary-cache-` followed by the contact id |
| AiSummary.CacheKeyInjective | src/components/overview/ai-summary.tsx:22 | different contacts have different keys |
| AiSummary.GetCachedSummary | src/components/overview/ai-summary.tsx:19-27 | the stored entry, or none exactly when the key is absent or the read fails |
| AiSummary.SetCachedSummary | src/components/overview/ai-summary.tsx:29-39 | a failed write changes nothing; otherwise the contact's entry becomes the data and every other entry stays |
| AiSummary.WriteThenRead | src/components/overview/ai-summary.tsx:19-39 | a successful write is read back |
| AiSummary.WriteIsolated | src/components/overview/ai-summary.tsx:29-39 | writing one contact's entry never changes what is read for another |
| AiSummary.ErrorMessage | src/components/overview/ai-summary.tsx:62-65 | the error's own message, or `Failed to generate summary` for a thrown non-error |
| AiSummary.LastPresentIndex | src/components/overview/ai-summary.tsx:54-58 | none exactly when every partial is falsy; otherwise the position of a non-falsy partial followed only by falsy ones |
| AiSummary.LastPresent | src/components/overview/ai-summary.tsx:53-59 | none exactly when every partial is falsy; otherwise a partial after which only falsy ones follow |
| AiSummary.ReadStream | src/components/overview/ai-summary.tsx:53-59 | the loop ends showing the last non-falsy partial, or what was shown before if there was none; the data to cache is that partial or `{}` |
| AiSummary.LoadSummary | src/components/overview/ai-summary.tsx:41-68 | static data is shown and cached; a stream shows its last non-falsy partial and, once it completes, caches it or `{}`; any throw sets the error message and leaves the cache as it was; no other key ever changes |
| AiSummary.CallOf | src/components/overview/ai-summary.tsx:47 | what awaiting the generator yields to the panel: the canned data as is, a thrown error with its message, or the stream's feed |
| AiSummary.NoKeyShowsCannedSummary | src/components/overview/ai-summary.tsx:47-51 | without a credential and with a canned entry, the panel shows the canned summary, keeps its error, and a successful write caches exactly what it shows |
| AiSummary.NoKeyMissingEntryShowsError | src/components/overview/ai-summary.tsx:62-65 | without a credential and without a canned entry, the panel shows the missing entry's error message and the cache is untouched |
| AiSummary.FailureKeepsCache | src/components/overview/ai-summary.tsx:62-67 | a failure, whether from the call or from the stream, leaves the cache untouched and sets an error |
| AiSummary.OnMount | src/components/overview/ai-summary.tsx:75-89 | nothing is generated exactly when a readable cached entry has a non-empty summary, and then that entry is shown; otherwise the panel is reset and the summary is loaded |
| AiSummary.OnRefresh | src/components/overview/ai-summary.tsx:91-98 | refresh always generates, from a reset panel |
| AiSummary.RefreshIgnoresCache | src/components/overview/ai-summary.tsx:91-98 | what refresh shows depends neither on the previous panel nor on the cache |
| AiSummary.CachedResultReused | src/components/overview/ai-summary.tsx:41-89 | after a successful load with a non-empty summary, showing the panel again uses the cache and generates nothing |
| ContactsData.GetContacts | src/lib/data/contacts.ts:9-12 | the contact list, unchanged |
| ContactsData.FindIndex | src/lib/data/contacts.ts:15 | none exactly when no contact has the id; otherwise the first contact with it |
| ContactsData.GetContactById | src/lib/data/contacts.ts:14-22 | none exactly when no contact has the id; otherwise the first such contact, unchanged, with `calculateStatus` of it |
| ContactsData.GetContactSummary | src/lib/data/contacts.ts:24-26 | the table's own entry for the id, or none exactly when the table has no entry of that name |
| ContactsData.GetContactSummaryAsWritten | src/lib/data/contacts.ts:25 | indexing the object literal finds an own entry, else a member inherited from `Object.prototype`, and is null exactly when the id is neither |
| ContactsData.AsWrittenFindsConstructor | src/lib/data/contacts.ts:25 | with no entry named `constructor`, the lookup as written still finds something for that id, where the own-entry lookup finds nothing |
| ContactsData.AsWrittenAgreesOnOtherIds | src/lib/data/contacts.ts:25 | for ids that name no inherited member, the two lookups agree |
| ContactsData.FoundContactIsUnique | src/lib/data/contacts.ts:14-22 | with distinct ids, looking up a contact's id finds that contact |
| PendingItemsView.DocumentsColumn | src/components/overview/pending-items.tsx:45-63 | Complete exactly when uploaded equals required; otherwise `uploaded/required` |
| PendingItemsView.FormsColumn | src/components/overview/pending-items.tsx:94-109 | Complete exactly when the forms are complete; otherwise the form's name |
| PendingItemsView.InvoicesColumn | src/components/overview/pending-items.tsx:140-159 | Paid exactly when paid equals total and nothing is overdue; otherwise the amount `total - paid` with the overdue flag |
| PendingItemsView.OwingText | src/components/overview/pending-items.tsx:152-158 | exactly `$amount` followed by ` overdue` when overdue and by ` pending` when not, with nothing else |
| PendingItemsView.Render | src/components/overview/pending-items.tsx:11-160 | the banner exactly when everything is complete; otherwise the three columns, each holding that column's own decision |
| PendingItemsView.AllCompleteIffEveryColumn | src/components/overview/pending-items.tsx:11-15 | all complete exactly when each of the three columns reports complete |
| PendingItemsView.AllComplete | src/components/overview/pending-items.tsx:11-15 | all complete only with the invoice fully paid and not overdue, and exactly when every column reports complete |
| PendingItemsView.PaidButOverdue | src/components/overview/pending-items.tsx:140-158 | a fully paid but overdue invoice shows `$0 overdue` |
| FollowupHistory.Insert | src/components/overview/followup-history.tsx:98 | inserting into a newest-first list keeps it newest first and adds exactly that entry |
| FollowupHistory.SortNewestFirst | src/components/overview/followup-history.tsx:98 | the sort is a permutation, newest first |
| FollowupHistory.CutNewestFirst | src/components/overview/followup-history.tsx:97-99 | in a newest-first list, what follows a cut is what remains once the head is taken, and none of it is later than anything in the head |
| FollowupHistory.HeadOfNewestFirst | src/components/overview/followup-history.tsx:97-99 | the head of a newest-first arrangement is newest first, drawn from the input, and no entry left out is later than any entry in it |
| FollowupHistory.RecentConversations | src/components/overview/followup-history.tsx:97-99 | `min(5, n)` entries taken from the input, newest first, with every entry left out no later than every entry shown |
| FollowupHistory.LabelsDistinct | src/components/overview/followup-history.tsx:83-94 | the four types get four different labels |
| FollowupHistory.GetLabel | src/components/overview/followup-history.tsx:83-94 | each caption belongs to exactly one conversation type |
| FollowupHistory.RowsOf | src/components/overview/followup-history.tsx:113-125 | one row per shown entry, with its label and time |
| FollowupHistory.Render | src/components/overview/followup-history.tsx:108-111 | the placeholder exactly when there are no conversations; otherwise the rows of the newest five |
| ContactSidebar.FilterContacts | src/components/contact-sidebar.tsx:26-32 | exactly the contacts whose lower-cased name or email contains the lower-cased query, each as often as it occurs, in list order |
| ContactSidebar.Matches | src/components/contact-sidebar.tsx:26-31 | the empty query matches every contact, and so does a query equal to the name or the email up to case |
| ContactSidebar.EmptyQueryKeepsAll | src/components/contact-sidebar.tsx:26-32 | the empty query keeps every contact |
| ContactSidebar.QueryCaseIgnored | src/components/contact-sidebar.tsx:27-30 | upper-casing the query does not change the result |
| ContactSidebar.TotalLabel | src/components/contact-sidebar.tsx:107 | the count, decimal digits with no leading zero, reads back as the number of filtered contacts, and is followed by ` total` |
| ContactSidebar.AsWrittenCoversSubpages | src/components/contact-sidebar.tsx:112 | the prefix test highlights a contact on its page and on its sub-pages |
| ContactSidebar.IsActiveAsWritten | src/components/contact-sidebar.tsx:112 | a contact is highlighted on its own page, and wherever it is highlighted the rail highlights Contacts |
| ContactSidebar.AsWrittenHighlightsTwo | src/components/contact-sidebar.tsx:112 | the prefix test highlights both `a` and `ab` on `/contact/ab` |
| ContactSidebar.ActiveCoversSubpages | src/components/contact-sidebar.tsx:112 | the segment test still highlights a contact on its page and its sub-pages |
| ContactSidebar.IsActive | src/components/contact-sidebar.tsx:112 | the corrected test still highlights a contact on its own page, and only where the rail highlights Contacts |
| ContactSidebar.ActiveImpliesAsWritten | src/components/contact-sidebar.tsx:112 | the segment test highlights nothing that the prefix test does not |
| ContactSidebar.AtMostOneActive | src/components/contact-sidebar.tsx:112 | with the segment test and ids free of `/`, no two contacts are highlighted on one path |
| TabNavigation.TabLink | src/components/tab-navigation.tsx:42-45 | a tab's link lies below `/contact/{id}`; it is that page exactly for Overview, and otherwise that page, a `/`, and the href |
| TabNavigation.ActiveIffAtLink | src/components/tab-navigation.tsx:26-45 | a tab is highlighted exactly on its own link |
| TabNavigation.IsTabActive | src/components/tab-navigation.tsx:26-32 | a highlighted tab lies on its contact's pages, where the sidebar's segment test highlights that contact |
| TabNavigation.TabLinkInjective | src/components/tab-navigation.tsx:42-45 | different hrefs give different links |
| TabNavigation.TabLinkHighlightsContact | src/components/tab-navigation.tsx:42-45 | every tab link highlights its contact in the contact list, under both tests |
| TabNavigation.TabHrefsDistinct | src/components/tab-navigation.tsx:10-21 | the ten tabs have pairwise different hrefs |
| TabNavigation.AtMostOneTabActive | src/components/tab-navigation.tsx:10-32 | at most one tab is highlighted on any path |
| TabNavigation.ExactlyOneTabOnLink | src/components/tab-navigation.tsx:26-45 | on a tab's link, that tab and no other is highlighted |
| IconRail.ContactPagesActivateContacts | src/components/icon-rail.tsx:35-36 | every `/contact/...` page highlights Contacts |
| IconRail.BelowContactsListInactive | src/components/icon-rail.tsx:34-39 | `/contacts/...` highlights no item, Contacts included |
| IconRail.HomeOnlyOnRoot | src/components/icon-rail.tsx:20-38 | Home is highlighted exactly on `/` |
| IconRail.NoPrefixMatch | src/components/icon-rail.tsx:38 | no item but Contacts is highlighted on a longer path below its own |
| IconRail.IsActive | src/components/icon-rail.tsx:34-39 | every item is highlighted on its own path; an item other than Contacts only there; Contacts on every path below `/contact/` |
| IconRail.OtherHrefsOutsideContacts | src/components/icon-rail.tsx:19-29 | no other item's path is the contact list or a contact page |
| IconRail.AtMostOneActive | src/components/icon-rail.tsx:19-39 | at most one item is highlighted on any path |
| MainNavigation.SameItemsAsIconRail | src/components/main-navigation-sidebar.tsx:16-26 | the drawer lists the rail's items, in the rail's order |
| MainNavigation.ContactsAgreesWithIconRail | src/components/main-navigation-sidebar.tsx:38-39 | the drawer highlights Contacts exactly when the rail does |
| MainNavigation.IsContactsActive | src/components/main-navigation-sidebar.tsx:38-39 | Contacts is active in the drawer exactly when the rail highlights Contacts |
| MainNavigation.IsItemActive | src/components/main-navigation-sidebar.tsx:47 | an item is highlighted exactly when it is Contacts and the rail highlights Contacts |
| MainNavigation.OnlyContactsActive | src/components/main-navigation-sidebar.tsx:47 | no item but Contacts is ever highlighted |
| MainNavigation.DrawerHighlightImpliesRail | src/components/main-navigation-sidebar.tsx:47 | whatever the drawer highlights, the rail highlights too |
| MainNavigation.OnClick | src/components/main-navigation-sidebar.tsx:52-57 | only Contacts navigates, to `/contacts`, which highlights it; the drawer closes exactly when Contacts is clicked and a close handler was given |

## Left out

- The streaming producer inside `generateContactSummary` (src/actions/generate-summary.ts:36-58): the model SDK, the schema and the async task are outside code. A stream is modelled only as the panel sees it: a finite sequence of partials, then completion or an error.
- `src/lib/ai.ts`: the credential check is the `hasKey` parameter.
- The canned contact and summary fixtures (`src/lib/mock-data.ts`): they depend on the current date. The summary table is a parameter, and the tests' scenarios are lemmas over a fixed `now`.
- `cn` and `formatDate` (and the history card's date text): they wrap class-merging and locale formatting libraries.
- The in-place reordering of the contact's conversations by `.sort` in the history card: the model sorts a copy.
- Sessions, JSON encoding and server rendering of the cache: the store is a map whose value is the stored object, and a read or write that throws, or a missing `window`, is a flag.
- The toast raised on a summary error, and the pending spinner: they are display effects.
- `status-badge`, the suggested-action card, theme and toast components, the sheet, layouts, pages, error and not-found pages, the mobile header and wrapper, `contact-header` and the documentation scraper: they hold no decision logic.
- Each `new Date()` in `calculateStatus` and `buildPrompt` reads the clock separately; both are the one `now` parameter.
- Invalid dates and `NaN` arithmetic are not modelled, and neither is the exponent notation JavaScript uses for very large numbers: instants and amounts are integers.
- Non-ASCII letters: upper and lower case follow the ASCII mapping only.
- When a contact never responded, the prompt reads `Last response: never responded days ago`. The template appends ` days ago` in both cases; `GenerateSummary.LastResponseField` states the field and the line keeps the suffix, as written.
- Utils.GetInitials: its own contract only bounds the length by the number of parts. The exact letters are stated by Utils.InitialsOfNonEmptyParts for every name, and by Utils.InitialsOfWords for names whose words are separated by single spaces.
- Utils.GetInitials: characters are whole characters. The source's `n[0]` takes one UTF-16 code unit, so a name starting with a character outside the Basic Multilingual Plane yields half of a surrogate pair; the model yields the whole character.
- Utils.FirstLetters: its own contract only bounds the length. What an empty part contributes is stated by Utils.FirstLettersSkipsEmpty, and the letters of non-empty parts by Utils.FirstLettersOfWords.
- GenerateSummary.GenerateContactSummary: looks the id up among the table's own entries, the corrected lookup of the findings below. For an id naming an inherited `Object.prototype` member and having no entry, the source instead returns a static result whose summary and escalation are `undefined`. The wording of the `TypeError` is that of the V8 engine.
- AiSummary.CallOf: a server-side throw reaches the panel as an `Error` with the same message; how the server-action transport may rewrite or redact the error on the way is not modelled.
- AiSummary.LoadSummary: each load runs to its end before anything else happens. The mount effect (src/components/overview/ai-summary.tsx:75-89) neither cancels nor ignores an earlier load, so when the contact changes while a stream is still running, that earlier stream keeps updating the panel; overlapping loads are not modelled.
- FollowupHistory.SortNewestFirst: the contract states a newest-first permutation and does not state that entries with equal times keep their input order (the definition is a stable insertion sort).
- GenerateSummary.RecentConversationsBlock: states that each quoted entry appears in the block, not the exact line layout.
- GenerateSummary.BuildPrompt: states the introduction and the ending, and (through GenerateSummary.PromptCarriesFields) that every field line appears; it does not state the order of the middle lines.

## Findings

| source | as written | input that shows it | evidently intended | confidence | as-written member | corrected member |
|---|---|---|---|---|---|---|
| src/components/contact-sidebar.tsx:112 | a contact is highlighted when the path starts with `/contact/` followed by its id | on `/contact/ab`, the contacts with ids `a` and `ab` are both highlighted | highlight a contact on its own page `/contact/{id}` and on pages below it, `/contact/{id}/...` | medium, not executed; the current contact ids are not prefixes of one another | ContactSidebar.AsWrittenHighlightsTwo | ContactSidebar.AtMostOneActive |
| src/lib/data/contacts.ts:25 | the canned summary is read as `MOCK_SUMMARIES[id] ?? null` from a plain object literal (src/lib/mock-data.ts:420) | the id `constructor`, which has no entry: the lookup yields the inherited `Object` constructor rather than null, so the summary route (src/app/api/summary/[id]/route.ts:11-15) answers 200 instead of 404; `__proto__`, `toString` and the other inherited names behave the same way | null for every id with no entry of its own in the table | high, not executed | ContactsData.AsWrittenFindsConstructor | ContactsData.GetContactSummary |

=== FILE: ai_summary.dfy ===
/**
 * The summary panel (`AISummary`) and its session cache: which result is shown,
 * when generation runs, and when the cache is written.
 *
 * The session store is a map from storage key to the stored partial result
 * (its JSON encoding round-trips, so it is kept as the value itself). A read or
 * a write that throws, or a store that is not there at all (server rendering),
 * is a flag: a failed read finds nothing and a failed write changes nothing.
 */
module AiSummary {
  import opened Wrappers
  import opened Types
  import opened Strings
  import GenerateSummary

  /** `Partial<SummaryResult>`: both fields may be missing. */
  datatype PartialSummary = PartialSummary(summary: Option<string>, escalation: Option<string>)

  const EmptySummary := PartialSummary(None, None)

  type Store = map<string, PartialSummary>

  const CacheKeyPrefix := "ai-summary-cache-"

  /** The storage key of a contact's cached summary. */
  function CacheKey(contactId: string): (k: string)
    ensures IsPrefix(CacheKeyPrefix, k)
    ensures k[|CacheKeyPrefix|..] == contactId
  {
    CacheKeyPrefix + contactId
  }

  /** Different contacts never share a cache entry. */
  lemma CacheKeyInjective(a: string, b: string)
    requires CacheKey(a) == CacheKey(b)
    ensures a == b
  {
    assert a == CacheKey(a)[|CacheKeyPrefix|..];
  }

  /** `getCachedSummary(contactId)`: the stored entry, or None when there is none
      or the read fails. */
  function GetCachedSummary(store: Store, contactId: string, readFails: bool): (r: Option<PartialSummary>)
    ensures r.Some? <==> !readFails && CacheKey(contactId) in store
    ensures r.Some? ==> r.value == store[CacheKey(contactId)]
  {
    if readFails then None
    else if CacheKey(contactId) in store then Some(store[CacheKey(contactId)])
    else None
  }

  /** `setCachedSummary(contactId, data)`: overwrite the contact's entry; a failed
      write is ignored. No other entry changes. */
  function SetCachedSummary(store: Store, contactId: string, data: PartialSummary, writeFails: bool): (r: Store)
    ensures writeFails ==> r == store
    ensures !writeFails ==> CacheKey(contactId) in r && r[CacheKey(contactId)] == data
    ensures r.Keys <= store.Keys + {CacheKey(contactId)}
    ensures forall k :: k in store && k != CacheKey(contactId) ==> k in r && r[k] == store[k]
  {
    if writeFails then store else store[CacheKey(contactId) := data]
  }

  /** A successful write is read back. */
  lemma WriteThenRead(store: Store, contactId: string, data: PartialSummary)
    ensures GetCachedSummary(SetCachedSummary(store, contactId, data, false), contactId, false) == Some(data)
  {
  }

  /** Writing one contact's entry does not change what is read for another. */
  lemma WriteIsolated(store: Store, a: string, b: string, data: PartialSummary, writeFails: bool, readFails: bool)
    requires a != b
    ensures GetCachedSummary(SetCachedSummary(store, a, data, writeFails), b, readFails)
         == GetCachedSummary(store, b, readFails)
  {
    if CacheKey(a) == CacheKey(b) {
      CacheKeyInjective(a, b);
    }
  }

  // ---------------------------------------------------------------------------
  // Loading a summary
  // ---------------------------------------------------------------------------

  /** What was thrown: an `Error` carrying a message, or some other value. */
  datatype Thrown = ErrorWithMessage(message: string) | NonError

  const DefaultErrorMessage := "Failed to generate summary"

  /** The message shown for a thrown value. */
  function ErrorMessage(e: Thrown): (m: string)
    ensures e.ErrorWithMessage? ==> m == e.message
    ensures e.NonError? ==> m == DefaultErrorMessage
  {
    match e
    case ErrorWithMessage(msg) => msg
    case NonError => DefaultErrorMessage
  }

  /** How a stream of partial results ends. */
  datatype StreamEnd = Completed | Threw(error: Thrown)

  /** What the panel reads from a stream: the partials in arrival order (None for
      a falsy one), then how it ended. */
  datatype StreamFeed = StreamFeed(partials: seq<Option<PartialSummary>>, end: StreamEnd)

  /** The outcome of awaiting `generateContactSummary`: it returns, or it throws. */
  datatype CallOutcome = Returned(generation: GenerationOutput) | CallThrew(error: Thrown)

  /** A returned generation: the static data, or the stream as the panel sees it. */
  datatype GenerationOutput = StaticData(data: GenerateSummary.SummaryResult) | Streamed(feed: StreamFeed)

  /** The panel's state: the data shown and the error message, if any. */
  datatype Panel = Panel(data: PartialSummary, error: Option<string>)

  const ResetPanel := Panel(EmptySummary, None)

  /** The result of a load: the panel and the store afterwards. */
  datatype Loaded = Loaded(panel: Panel, store: Store)

  function FromResult(d: GenerateSummary.SummaryResult): PartialSummary {
    PartialSummary(Some(d.summary), d.escalation)
  }

  /** The position of the last non-falsy partial of a stream, if any. */
  function LastPresentIndex(partials: seq<Option<PartialSummary>>): (r: Option<nat>)
    ensures r.None? <==> forall i :: 0 <= i < |partials| ==> partials[i].None?
    ensures r.Some? ==> r.value < |partials| && partials[r.value].Some?
    ensures r.Some? ==> forall j :: r.value < j < |partials| ==> partials[j].None?
    decreases |partials|
  {
    if |partials| == 0 then None
    else if partials[|partials| - 1].Some? then Some(|partials| - 1)
    else
      var earlier := partials[..|partials| - 1];
      assert forall i :: 0 <= i < |earlier| ==> earlier[i] == partials[i];
      LastPresentIndex(earlier)
  }

  /** The last non-falsy partial of a stream, if any. */
  function LastPresent(partials: seq<Option<PartialSummary>>): (r: Option<PartialSummary>)
    ensures r.None? <==> forall i :: 0 <= i < |partials| ==> partials[i].None?
    ensures r.Some? ==>
      exists i :: 0 <= i < |partials| && partials[i] == r && (forall j :: i < j < |partials| ==> partials[j].None?)
  {
    match LastPresentIndex(partials)
    case None => None
    case Some(i) => partials[i]
  }

  /**
   * The `for await` loop over a stream: every non-falsy partial is shown and
   * remembered. Ends with what is shown and what would be cached.
   */
  method ReadStream(shownBefore: PartialSummary, partials: seq<Option<PartialSummary>>)
    returns (shown: PartialSummary, finalData: PartialSummary)
    ensures shown == LastPresent(partials).GetOr(shownBefore)
    ensures finalData == LastPresent(partials).GetOr(EmptySummary)
  {
    shown := shownBefore;
    finalData := EmptySummary;
    var i := 0;
    while i < |partials|
      invariant 0 <= i <= |partials|
      invariant shown == LastPresent(partials[..i]).GetOr(shownBefore)
      invariant finalData == LastPresent(partials[..i]).GetOr(EmptySummary)
    {
      assert partials[..i + 1][..i] == partials[..i];
      if partials[i].Some? {
        shown := partials[i].value;
        finalData := partials[i].value;
      }
      i := i + 1;
    }
    assert partials[..i] == partials;
  }

  /**
   * `loadSummary(contact, setData, setError)` for a contact id. Static data is
   * shown and cached. Each non-falsy partial is shown in turn; after the stream
   * completes, the last one (or `{}`) is cached. Anything thrown is reported as
   * an error message and leaves the cache as it was.
   */
  function LoadSummary(panel: Panel, store: Store, contactId: string, call: CallOutcome, writeFails: bool): (r: Loaded)
    ensures forall k :: k != CacheKey(contactId) ==>
      (k in r.store <==> k in store) && (k in store ==> r.store[k] == store[k])
    ensures call.CallThrew? ==>
      r.store == store && r.panel == panel.(error := Some(ErrorMessage(call.error)))
    ensures call.Returned? && call.generation.StaticData? ==>
      r.panel == panel.(data := FromResult(call.generation.data)) &&
      r.store == SetCachedSummary(store, contactId, FromResult(call.generation.data), writeFails)
    ensures call.Returned? && call.generation.Streamed? ==>
      r.panel.data == LastPresent(call.generation.feed.partials).GetOr(panel.data)
    ensures call.Returned? && call.generation.Streamed? && call.generation.feed.end.Completed? ==>
      r.panel.error == panel.error &&
      r.store == SetCachedSummary(store, contactId, LastPresent(call.generation.feed.partials).GetOr(EmptySummary), writeFails)
    ensures call.Returned? && call.generation.Streamed? && call.generation.feed.end.Threw? ==>
      r.store == store && r.panel.error == Some(ErrorMessage(call.generation.feed.end.error))
  {
    match call
    case CallThrew(e) => Loaded(panel.(error := Some(ErrorMessage(e))), store)
    case Returned(StaticData(d)) =>
      Loaded(panel.(data := FromResult(d)), SetCachedSummary(store, contactId, FromResult(d), writeFails))
    case Returned(Streamed(feed)) =>
      var last := LastPresent(feed.partials);
      var shown := panel.(data := last.GetOr(panel.data));
      match feed.end
      case Completed => Loaded(shown, SetCachedSummary(store, contactId, last.GetOr(EmptySummary), writeFails))
      case Threw(e) => Loaded(shown.(error := Some(ErrorMessage(e))), store)
  }

  /**
   * The panel's view of awaiting `generateContactSummary`: canned data arrives
   * as it is, a thrown error as the call's failure, and a started stream as the
   * feed its producer delivers. The producer is outside this model, so that
   * feed is a parameter.
   */
  function CallOf(g: GenerateSummary.Generation, feed: StreamFeed): (r: CallOutcome)
    ensures g.Static? <==> r.Returned? && r.generation.StaticData?
    ensures g.Static? ==> r.generation.data == g.data
    ensures g.Threw? <==> r.CallThrew?
    ensures g.Threw? ==> ErrorMessage(r.error) == g.message
    ensures g.Stream? ==> r == Returned(Streamed(feed))
  {
    match g
    case Static(d) => Returned(StaticData(d))
    case Threw(m) => CallThrew(ErrorWithMessage(m))
    case Stream(_) => Returned(Streamed(feed))
  }

  /** Without a credential and with a canned entry, the panel shows the canned
      summary, keeps its error, and caches what it shows. */
  lemma NoKeyShowsCannedSummary(c: Contact, now: int, mocks: GenerateSummary.MockSummaries,
                                panel: Panel, store: Store, feed: StreamFeed, writeFails: bool)
    requires c.id in mocks
    ensures var r := LoadSummary(panel, store, c.id,
                                 CallOf(GenerateSummary.GenerateContactSummary(c, now, false, mocks), feed), writeFails);
      && r.panel.data.summary == Some(mocks[c.id].summary)
      && r.panel.error == panel.error
      && (!writeFails ==> GetCachedSummary(r.store, c.id, false) == Some(r.panel.data))
      && (writeFails ==> r.store == store)
  {
    var g := GenerateSummary.GenerateContactSummary(c, now, false, mocks);
    assert g.Static?;
  }

  /** Without a credential and without a canned entry, the panel shows the
      error of the missing entry and the cache is untouched. */
  lemma NoKeyMissingEntryShowsError(c: Contact, now: int, mocks: GenerateSummary.MockSummaries,
                                    panel: Panel, store: Store, feed: StreamFeed, writeFails: bool)
    requires c.id !in mocks
    ensures var r := LoadSummary(panel, store, c.id,
                                 CallOf(GenerateSummary.GenerateContactSummary(c, now, false, mocks), feed), writeFails);
      r.store == store && r.panel == panel.(error := Some(GenerateSummary.MissingEntryMessage))
  {
    var g := GenerateSummary.GenerateContactSummary(c, now, false, mocks);
    assert g.Threw?;
  }

  /** Any failure, from the call or from the stream, leaves the cache untouched. */
  lemma FailureKeepsCache(panel: Panel, store: Store, contactId: string, call: CallOutcome, writeFails: bool)
    requires call.CallThrew? || (call.generation.Streamed? && call.generation.feed.end.Threw?)
    ensures LoadSummary(panel, store, contactId, call, writeFails).store == store
    ensures LoadSummary(panel, store, contactId, call, writeFails).panel.error.Some?
  {
  }

  // ---------------------------------------------------------------------------
  // Mount and refresh
  // ---------------------------------------------------------------------------

  /** `cached?.summary` is truthy: present and non-empty. */
  predicate HasSummary(p: PartialSummary) {
    p.summary.Some? && p.summary.value != ""
  }

  /** The panel after an event, and whether generation ran. */
  datatype Reaction = Reaction(loaded: Loaded, generated: bool)

  /**
   * The effect run when the panel is shown for a contact: a cached entry with a
   * non-empty summary is shown and nothing is generated; otherwise the panel is
   * reset and the summary is loaded.
   */
  function OnMount(panel: Panel, store: Store, contactId: string, readFails: bool, call: CallOutcome, writeFails: bool): (r: Reaction)
    ensures !r.generated <==> (var cached := GetCachedSummary(store, contactId, readFails);
                                cached.Some? && HasSummary(cached.value))
    ensures !r.generated ==>
      r.loaded.store == store && r.loaded.panel == panel.(data := store[CacheKey(contactId)])
    ensures r.generated ==> r.loaded == LoadSummary(ResetPanel, store, contactId, call, writeFails)
  {
    var cached := GetCachedSummary(store, contactId, readFails);
    if cached.Some? && HasSummary(cached.value) then
      Reaction(Loaded(panel.(data := cached.value), store), false)
    else
      Reaction(LoadSummary(ResetPanel, store, contactId, call, writeFails), true)
  }

  /** The refresh button: reset the panel and load again, whatever is cached. */
  function OnRefresh(panel: Panel, store: Store, contactId: string, call: CallOutcome, writeFails: bool): (r: Reaction)
    ensures r.generated
    ensures r.loaded == LoadSummary(ResetPanel, store, contactId, call, writeFails)
  {
    Reaction(LoadSummary(ResetPanel, store, contactId, call, writeFails), true)
  }

  /** What refresh shows does not depend on the panel before it or on the cache. */
  lemma RefreshIgnoresCache(p1: Panel, p2: Panel, s1: Store, s2: Store, contactId: string, call: CallOutcome, writeFails: bool)
    ensures OnRefresh(p1, s1, contactId, call, writeFails).loaded.panel
         == OnRefresh(p2, s2, contactId, call, writeFails).loaded.panel
  {
  }

  /** After a generation whose result has a summary and was cached, showing the
      panel again for that contact uses the cache and generates nothing. */
  lemma CachedResultReused(store: Store, contactId: string, call: CallOutcome, call2: CallOutcome, writeFails2: bool)
    requires call.Returned?
    requires call.generation.StaticData? ==> call.generation.data.summary != ""
    requires call.generation.Streamed? ==>
      call.generation.feed.end.Completed? &&
      var last := LastPresent(call.generation.feed.partials);
      last.Some? && HasSummary(last.value)
    ensures var after := LoadSummary(ResetPanel, store, contactId, call, false);
      var again := OnMount(after.panel, after.store, contactId, false, call2, writeFails2);
      !again.generated && again.loaded.store == after.store &&
      again.loaded.panel.data == after.panel.data
  {
  }
}

=== FILE: contact_sidebar.dfy ===
/**
 * The contact list sidebar: case-insensitive search over names and emails,
 * the total count shown above the list, and which entry is highlighted for
 * the current path.
 */
module ContactSidebar {
  import opened Types
  import opened Strings
  import opened Lists
  import IconRail

  /** A contact matches when its lower-cased name or email contains the
      lower-cased query. */
  function Matches(c: Contact, query: string): (r: bool)
    ensures query == "" ==> r
    ensures Lower(query) == Lower(c.name) || Lower(query) == Lower(c.email) ==> r
  {
    ContainsEmpty(Lower(c.name));
    ContainsSelf(Lower(c.name));
    ContainsSelf(Lower(c.email));
    Contains(Lower(c.name), Lower(query)) || Contains(Lower(c.email), Lower(query))
  }

  /** `filteredContacts`: exactly the matching contacts, in list order. */
  function FilterContacts(contacts: seq<Contact>, query: string): (r: seq<Contact>)
    ensures forall c :: c in r <==> c in contacts && Matches(c, query)
    ensures IsSubsequence(r, contacts)
    ensures forall c :: multiset(r)[c] == if Matches(c, query) then multiset(contacts)[c] else 0
    ensures |r| <= |contacts|
  {
    Filter(c => Matches(c, query), contacts)
  }

  /** The empty query keeps every contact. */
  lemma EmptyQueryKeepsAll(contacts: seq<Contact>)
    ensures FilterContacts(contacts, "") == contacts
  {
    forall i | 0 <= i < |contacts|
      ensures Matches(contacts[i], "")
    {
      ContainsEmpty(Lower(contacts[i].name));
    }
    FilterAll(c => Matches(c, ""), contacts);
  }

  /** The case of the query does not matter. */
  lemma QueryCaseIgnored(contacts: seq<Contact>, query: string)
    ensures FilterContacts(contacts, Upper(query)) == FilterContacts(contacts, query)
  {
    LowerOfUpper(query);
    FilterCongruent(c => Matches(c, Upper(query)), c => Matches(c, query), contacts);
  }

  /** The count line above the list: the number of matches, then ` total`. */
  function TotalLabel(contacts: seq<Contact>, query: string): (r: string)
    ensures IsSuffix(" total", r)
    ensures Canonical(r[..|r| - 6]) && DigitsValue(r[..|r| - 6]) == |FilterContacts(contacts, query)|
  {
    var n := |FilterContacts(contacts, query)|;
    NatToStringRoundTrip(n);
    var r := NatToString(n) + " total";
    assert r[..|r| - 6] == NatToString(n);
    r
  }

  /** The contact's page path, `/contact/<id>`. */
  function ContactPath(id: string): string {
    "/contact/" + id
  }

  /** A path starting with a contact's page path is below `/contact/`. */
  lemma PrefixOfContactPage(pathname: string, id: string)
    ensures IsPrefix(ContactPath(id), pathname) ==> IsPrefix(IconRail.ContactPagePrefix, pathname)
  {
    if IsPrefix(ContactPath(id), pathname) {
      assert pathname[..9] == ContactPath(id)[..9];
    }
  }

  /** A path below `p + "/"` starts with `p`. */
  lemma PrefixOfSubpage(pathname: string, p: string)
    ensures IsPrefix(p + "/", pathname) ==> IsPrefix(p, pathname)
  {
    if IsPrefix(p + "/", pathname) {
      assert pathname[..|p|] == (p + "/")[..|p|];
    }
  }

  /** `isActive` as written: the path starts with the contact's page path. */
  function IsActiveAsWritten(pathname: string, id: string): (r: bool)
    ensures pathname == ContactPath(id) ==> r
    ensures r ==> IconRail.IsActive(pathname, IconRail.ContactsHref)
  {
    PrefixOfContactPage(pathname, id);
    IsPrefix(ContactPath(id), pathname)
  }

  /** The contact's page and its sub-pages highlight it. */
  lemma AsWrittenCoversSubpages(id: string, rest: string)
    ensures IsActiveAsWritten(ContactPath(id), id)
    ensures IsActiveAsWritten(ContactPath(id) + "/" + rest, id)
  {
    var p := ContactPath(id) + "/" + rest;
    assert p[..|ContactPath(id)|] == ContactPath(id);
  }

  /** When one id is a prefix of another, both contacts are highlighted on the
      longer one's page: on `/contact/ab`, contacts `a` and `ab` are both active. */
  lemma AsWrittenHighlightsTwo()
    ensures IsActiveAsWritten("/contact/ab", "a")
    ensures IsActiveAsWritten("/contact/ab", "ab")
  {
    assert ContactPath("a") == "/contact/a";
    assert ContactPath("ab") == "/contact/ab";
  }

  /** `isActive` matching whole path segments: the contact's page or a page below it. */
  function IsActive(pathname: string, id: string): (r: bool)
    ensures pathname == ContactPath(id) ==> r
    ensures r ==> IconRail.IsActive(pathname, IconRail.ContactsHref)
  {
    PrefixOfContactPage(pathname, id);
    PrefixOfSubpage(pathname, ContactPath(id));
    pathname == ContactPath(id) || IsPrefix(ContactPath(id) + "/", pathname)
  }

  /** The corrected test keeps every page the written one was meant to cover. */
  lemma ActiveCoversSubpages(id: string, rest: string)
    ensures IsActive(ContactPath(id), id)
    ensures IsActive(ContactPath(id) + "/" + rest, id)
  {
    var p := ContactPath(id) + "/" + rest;
    assert p[..|ContactPath(id) + "/"|] == ContactPath(id) + "/";
  }

  /** The corrected test is narrower than the written one. */
  lemma ActiveImpliesAsWritten(pathname: string, id: string)
    requires IsActive(pathname, id)
    ensures IsActiveAsWritten(pathname, id)
  {
    if pathname != ContactPath(id) {
      assert pathname[..|ContactPath(id)|] == (ContactPath(id) + "/")[..|ContactPath(id)|];
    }
  }

  /** An active contact's page path is a prefix of the path, and the path ends
      there or continues with `/`. */
  lemma ActiveSegment(pathname: string, id: string)
    requires IsActive(pathname, id)
    ensures |ContactPath(id)| <= |pathname| && pathname[..|ContactPath(id)|] == ContactPath(id)
    ensures |pathname| > |ContactPath(id)| ==> pathname[|ContactPath(id)|] == '/'
  {
    var p := ContactPath(id);
    if pathname != p {
      assert pathname[..|p|] == (p + "/")[..|p|];
      assert pathname[|p|] == (p + "/")[|p|];
    }
  }

  /** Of two active contacts, one whose id has no `/` is not the longer. */
  lemma ActiveIdNotLonger(pathname: string, a: string, b: string)
    requires '/' !in b
    requires IsActive(pathname, a) && IsActive(pathname, b)
    ensures |b| <= |a|
  {
    ActiveSegment(pathname, a);
    ActiveSegment(pathname, b);
    SegmentNotLonger(pathname, ContactPath(a), b);
  }

  /** If a path starts with `pa` and continues, if at all, with `/`, then a
      `/`-free id whose page path also starts it is no longer than `pa`'s id. */
  lemma SegmentNotLonger(pathname: string, pa: string, b: string)
    requires |pa| >= 9 && |pa| <= |pathname|
    requires |pathname| > |pa| ==> pathname[|pa|] == '/'
    requires '/' !in b
    requires 9 + |b| <= |pathname| && pathname[9..9 + |b|] == b
    ensures |b| <= |pa| - 9
  {
    assert forall i :: 0 <= i < |b| ==> b[i] == pathname[9 + i];
  }

  /** With ids free of `/`, at most one contact is highlighted for any path. */
  lemma AtMostOneActive(pathname: string, a: string, b: string)
    requires '/' !in a && '/' !in b
    requires IsActive(pathname, a) && IsActive(pathname, b)
    ensures a == b
  {
    ActiveIdNotLonger(pathname, a, b);
    ActiveIdNotLonger(pathname, b, a);
    ActiveSegment(pathname, a);
    ActiveSegment(pathname, b);
    assert a == ContactPath(a)[9..] && b == ContactPath(b)[9..];
  }
}

=== FILE: contacts_data.dfy ===
/**
 * The contact data access layer over the fixture list: list all contacts, find
 * one by id with its computed status, and look up a canned summary.
 */
module ContactsData {
  import opened Wrappers
  import opened Types
  import Status

  /** `ContactWithStatus`: the contact's own fields plus its computed status. */
  datatype ContactWithStatus = ContactWithStatus(contact: Contact, status: ContactStatus)

  /** `getContacts()`: the whole list, as held. */
  function GetContacts(contacts: seq<Contact>): (r: seq<Contact>)
    ensures r == contacts
  {
    contacts
  }

  /** `contacts.find(c => c.id === id)`, as the index of the first match. */
  function FindIndex(contacts: seq<Contact>, id: string): (r: Option<nat>)
    ensures r.None? <==> forall i :: 0 <= i < |contacts| ==> contacts[i].id != id
    ensures r.Some? ==>
      && r.value < |contacts|
      && contacts[r.value].id == id
      && (forall j :: 0 <= j < r.value ==> contacts[j].id != id)
    decreases |contacts|
  {
    if |contacts| == 0 then None
    else if contacts[0].id == id then Some(0)
    else match FindIndex(contacts[1..], id)
      case None => None
      case Some(k) => Some(k + 1)
  }

  /**
   * `getContactById(id)` at instant `now`: None exactly when no contact has the
   * id; otherwise the first contact with that id, unchanged, with its status.
   */
  function GetContactById(contacts: seq<Contact>, id: string, now: int): (r: Option<ContactWithStatus>)
    ensures r.None? <==> forall i :: 0 <= i < |contacts| ==> contacts[i].id != id
    ensures r.Some? ==>
      exists i :: (
        && 0 <= i < |contacts|
        && contacts[i].id == id
        && (forall j :: 0 <= j < i ==> contacts[j].id != id)
        && r.value.contact == contacts[i]
        && r.value.status == Status.CalculateStatus(contacts[i], now))
  {
    match FindIndex(contacts, id)
    case None => None
    case Some(i) => Some(ContactWithStatus(contacts[i], Status.CalculateStatus(contacts[i], now)))
  }

  /** What indexing the summary object literal yields: one of its own entries,
      or a member inherited from `Object.prototype`. */
  datatype SummaryEntry = OwnEntry(summary: MockSummary) | InheritedMember(name: string)

  /**
   * `MOCK_SUMMARIES[id] ?? null` as written: the table is a plain object
   * literal, so an id naming an inherited member (`constructor`, `__proto__`,
   * ...) finds that member, and the summary route answers with it instead of
   * "not found".
   */
  function GetContactSummaryAsWritten(mocks: map<string, MockSummary>, id: string): (r: Option<SummaryEntry>)
    ensures r.None? <==> id !in mocks && id !in ObjectPrototypeMembers
    ensures id in mocks ==> r == Some(OwnEntry(mocks[id]))
    ensures r.Some? && r.value.InheritedMember? ==> id !in mocks && r.value.name == id
  {
    if id in mocks then Some(OwnEntry(mocks[id]))
    else if id in ObjectPrototypeMembers then Some(InheritedMember(id))
    else None
  }

  /** With no table entry named `constructor`, the lookup as written still finds
      something for that id, where the own-entry lookup finds nothing. */
  lemma AsWrittenFindsConstructor(mocks: map<string, MockSummary>)
    requires "constructor" !in mocks
    ensures GetContactSummaryAsWritten(mocks, "constructor") == Some(InheritedMember("constructor"))
    ensures GetContactSummary(mocks, "constructor").None?
  {
  }

  /** Away from the inherited names, the lookup as written and the own-entry
      lookup agree. */
  lemma AsWrittenAgreesOnOtherIds(mocks: map<string, MockSummary>, id: string)
    requires id !in ObjectPrototypeMembers
    ensures GetContactSummaryAsWritten(mocks, id).None? <==> GetContactSummary(mocks, id).None?
    ensures GetContactSummary(mocks, id).Some? ==>
      GetContactSummaryAsWritten(mocks, id) == Some(OwnEntry(GetContactSummary(mocks, id).value))
  {
  }

  /** `getContactSummary(id)` over the table's own entries: the entry, or None
      when the table has no entry of that name. */
  function GetContactSummary(mocks: map<string, MockSummary>, id: string): (r: Option<MockSummary>)
    ensures r.Some? <==> id in mocks
    ensures r.Some? ==> r.value == mocks[id]
  {
    if id in mocks then Some(mocks[id]) else None
  }

  /** With distinct ids, the contact found is the one holding the id. */
  lemma FoundContactIsUnique(contacts: seq<Contact>, k: nat, now: int)
    requires k < |contacts|
    requires forall i, j :: 0 <= i < j < |contacts| ==> contacts[i].id != contacts[j].id
    ensures GetContactById(contacts, contacts[k].id, now)
         == Some(ContactWithStatus(contacts[k], Status.CalculateStatus(contacts[k], now)))
  {
  }
}

=== FILE: followup_history.dfy ===
/**
 * The follow-up history card: the five newest conversation entries, newest
 * first, each with a label for its type, or a placeholder when there are none.
 */
module FollowupHistory {
  import opened Types
  import opened Lists

  /** How many entries the card shows. */
  const ShownCount := 5

  /** Newest first: no entry is later than one before it. */
  ghost predicate NewestFirst(cs: seq<Conversation>) {
    forall i, j :: 0 <= i < j < |cs| ==> cs[i].timestamp >= cs[j].timestamp
  }

  /** Newest first, checked on neighbours only. */
  ghost predicate NeighboursNewestFirst(cs: seq<Conversation>) {
    forall i :: 0 < i < |cs| ==> cs[i - 1].timestamp >= cs[i].timestamp
  }

  lemma {:induction false} NeighboursSuffice(cs: seq<Conversation>)
    requires NeighboursNewestFirst(cs)
    ensures NewestFirst(cs)
  {
    if |cs| > 1 {
      NeighboursSuffice(cs[1..]);
      assert forall j :: 0 < j < |cs| ==> cs[0].timestamp >= cs[j].timestamp by {
        forall j | 0 < j < |cs|
          ensures cs[0].timestamp >= cs[j].timestamp
        {
          assert cs[1..][0] == cs[1] && cs[1..][j - 1] == cs[j];
        }
      }
    }
  }

  /** Places `x` ahead of every entry not later than it; entries of equal time
      that were already there stay behind `x`, which came earlier in the input. */
  function Insert(x: Conversation, sorted: seq<Conversation>): (r: seq<Conversation>)
    requires NeighboursNewestFirst(sorted)
    ensures |r| == |sorted| + 1
    ensures r[0] == x || (|sorted| > 0 && r[0] == sorted[0])
    ensures multiset(r) == multiset(sorted) + multiset{x}
    ensures NeighboursNewestFirst(r)
  {
    if |sorted| == 0 || x.timestamp >= sorted[0].timestamp then [x] + sorted
    else
      assert sorted == [sorted[0]] + sorted[1..];
      var rest := Insert(x, sorted[1..]);
      assert sorted[0].timestamp >= rest[0].timestamp;
      [sorted[0]] + rest
  }

  /** `conversations.sort((a, b) => b.timestamp - a.timestamp)`: a stable sort,
      newest first, of the same entries. */
  function SortNewestFirst(cs: seq<Conversation>): (r: seq<Conversation>)
    ensures |r| == |cs|
    ensures multiset(r) == multiset(cs)
    ensures NeighboursNewestFirst(r)
  {
    if |cs| == 0 then []
    else
      assert cs == [cs[0]] + cs[1..];
      Insert(cs[0], SortNewestFirst(cs[1..]))
  }

  /** Cutting a newest-first list at `n`: what follows the cut is what is left
      once the head is taken, and none of it is later than anything in the head. */
  lemma CutNewestFirst(sorted: seq<Conversation>, n: nat)
    requires n <= |sorted| && NewestFirst(sorted)
    ensures multiset(sorted) - multiset(sorted[..n]) == multiset(sorted[n..])
    ensures forall x, y :: x in multiset(sorted[n..]) && y in sorted[..n] ==> x.timestamp <= y.timestamp
  {
    assert sorted == sorted[..n] + sorted[n..];
    forall x, y | x in multiset(sorted[n..]) && y in sorted[..n]
      ensures x.timestamp <= y.timestamp
    {
      var i :| 0 <= i < n && sorted[..n][i] == y;
      var j :| 0 <= j < |sorted| - n && sorted[n..][j] == x;
      assert sorted[i] == y && sorted[n + j] == x;
    }
  }

  /** The head of a newest-first arrangement of `cs` is newest first, is drawn
      from `cs`, and nothing of `cs` left out of it is later than anything in it. */
  lemma HeadOfNewestFirst(cs: seq<Conversation>, sorted: seq<Conversation>, n: nat)
    requires multiset(sorted) == multiset(cs) && NewestFirst(sorted) && n <= |sorted|
    ensures NewestFirst(sorted[..n])
    ensures multiset(sorted[..n]) <= multiset(cs)
    ensures forall x, y :: x in multiset(cs) - multiset(sorted[..n]) && y in sorted[..n] ==> x.timestamp <= y.timestamp
  {
    CutNewestFirst(sorted, n);
    var head := sorted[..n];
    forall i, j | 0 <= i < j < |head|
      ensures head[i].timestamp >= head[j].timestamp
    {
      assert head[i] == sorted[i] && head[j] == sorted[j];
    }
    assert sorted == head + sorted[n..];
    assert multiset(sorted) == multiset(head) + multiset(sorted[n..]);
    assert multiset(cs) - multiset(head) == multiset(sorted[n..]);
    forall x, y | x in multiset(cs) - multiset(head) && y in head
      ensures x.timestamp <= y.timestamp
    {
      assert x in multiset(sorted[n..]);
    }
  }

  /**
   * The entries shown: the first five of the sorted list. There are
   * `min(5, n)` of them, newest first, all taken from the input, and every
   * entry left out is no later than every entry shown.
   */
  function RecentConversations(cs: seq<Conversation>): (r: seq<Conversation>)
    ensures |r| == Min(ShownCount, |cs|)
    ensures NewestFirst(r)
    ensures multiset(r) <= multiset(cs)
    ensures forall x, y :: x in multiset(cs) - multiset(r) && y in r ==> x.timestamp <= y.timestamp
  {
    var sorted := SortNewestFirst(cs);
    var n := Min(ShownCount, |cs|);
    NeighboursSuffice(sorted);
    HeadOfNewestFirst(cs, sorted, n);
    sorted[..n]
  }

  /** `getLabel(type)` */
  function GetLabel(kind: ConversationType): (r: string)
    ensures r == "AI Follow-up sent" <==> kind == AiFollowup
    ensures r == "Client responded" <==> kind == ClientResponse
    ensures r == "Attorney message" <==> kind == AttorneyMessage
    ensures r == "System notification" <==> kind == System
  {
    match kind
    case AiFollowup => "AI Follow-up sent"
    case ClientResponse => "Client responded"
    case AttorneyMessage => "Attorney message"
    case System => "System notification"
  }

  /** The four types get four different labels. */
  lemma LabelsDistinct(a: ConversationType, b: ConversationType)
    requires a != b
    ensures GetLabel(a) != GetLabel(b)
  {
  }

  /** One line of the card: the label and the entry's time. */
  datatype Row = Row(caption: string, timestamp: int)

  /** The card: the placeholder "No conversation history yet.", or the rows. */
  datatype Card = NoHistory | Rows(rows: seq<Row>)

  function RowsOf(es: seq<Conversation>): (rows: seq<Row>)
    ensures |rows| == |es|
    ensures forall i :: 0 <= i < |es| ==> rows[i] == Row(GetLabel(es[i].kind), es[i].timestamp)
  {
    seq(|es|, i requires 0 <= i < |es| => Row(GetLabel(es[i].kind), es[i].timestamp))
  }

  /** The card for a contact's conversations. */
  function Render(cs: seq<Conversation>): (r: Card)
    ensures r.NoHistory? <==> |cs| == 0
    ensures r.Rows? ==> r.rows == RowsOf(RecentConversations(cs))
  {
    var recent := RecentConversations(cs);
    if |recent| == 0 then NoHistory else Rows(RowsOf(recent))
  }
}

=== FILE: generate_summary.dfy ===
/**
 * The summary generator (`generateContactSummary`): with no model credential
 * it answers with the canned summary for the contact; otherwise it starts a
 * stream whose only input this model keeps is the prompt text (`buildPrompt`).
 */
module GenerateSummary {
  import opened Wrappers
  import opened Types
  import opened Strings
  import opened Lists
  import Utils
  import Status

  /** `SummaryResult`: a short summary and an optional escalation message. */
  datatype SummaryResult = SummaryResult(summary: string, escalation: Option<string>)

  /** What `generateContactSummary` hands back: canned data, a stream started
      from the given prompt, or the error it throws. */
  datatype Generation = Static(data: SummaryResult) | Stream(prompt: string) | Threw(message: string)

  /** The `TypeError` a JavaScript engine (V8's wording) raises when the canned
      entry is missing and its `summary` is read. */
  const MissingEntryMessage := "Cannot read properties of undefined (reading 'summary')"

  /** The canned summaries, by contact id. */
  type MockSummaries = map<string, MockSummary>

  /** How many of the latest conversation entries the prompt quotes. */
  const RecentCount := 5

  const NeverResponded := "never responded"

  const Intro := "You are summarizing a bankruptcy client's status for their attorney.\n\n"

  const Instructions :=
    "\n\nWrite a 2-3 sentence summary focusing on:\n1. Current case status\n2. What's blocking progress\n3. Any concerns\n\n"

  /** The instruction block added when the contact needs attention. */
  const EscalationRequest :=
    "\nAlso write a suggested escalation message that:\n"
    + "- Takes a different approach than automated follow-ups\n"
    + "- Is warm and helpful in tone\n"
    + "- Offers specific assistance\n"
    + "- Is ready to send via SMS\n"

  /** The instruction used otherwise. */
  const NoEscalation := "Do not include an escalation message."

  // ---------------------------------------------------------------------------
  // The fields of the prompt
  // ---------------------------------------------------------------------------

  /** The days since the last client response, or the `never responded` sentinel. */
  function LastResponseField(c: Contact, now: int): (r: string)
    ensures c.lastClientResponse.None? <==> r == NeverResponded
    ensures c.lastClientResponse.Some? ==>
      Canonical(r) && DigitsValue(r) == Utils.DaysBetween(c.lastClientResponse.value, now)
  {
    match c.lastClientResponse
    case Some(t) =>
      var days := Utils.DaysBetween(t, now);
      NatToStringRoundTrip(days);
      assert !IsDigit(NeverResponded[0]);
      NatToString(days)
    case None => NeverResponded
  }

  /** One conversation entry as `[type] content`. */
  function RenderEntry(e: Conversation): (r: string)
    ensures IsPrefix("[" + ConversationTypeText(e.kind) + "] ", r)
    ensures r[|ConversationTypeText(e.kind)| + 3..] == e.content
  {
    "[" + ConversationTypeText(e.kind) + "] " + e.content
  }

  /** The entries quoted in the prompt: the last five in array order (`slice(-5)`). */
  function RecentConversations(cs: seq<Conversation>): (r: seq<Conversation>)
    ensures |r| == Min(RecentCount, |cs|)
    ensures cs == cs[..|cs| - |r|] + r
  {
    LastN(cs, RecentCount)
  }

  function RenderAll(es: seq<Conversation>): (lines: seq<string>)
    ensures |lines| == |es|
    ensures forall i :: 0 <= i < |es| ==> lines[i] == RenderEntry(es[i])
  {
    seq(|es|, i requires 0 <= i < |es| => RenderEntry(es[i]))
  }

  lemma RenderedLinesFound(es: seq<Conversation>)
    ensures forall e :: e in es ==> Contains(Join(RenderAll(es), "\n"), RenderEntry(e))
  {
    forall e | e in es
      ensures Contains(Join(RenderAll(es), "\n"), RenderEntry(e))
    {
      var k :| 0 <= k < |es| && es[k] == e;
      JoinContainsPart(RenderAll(es), "\n", k);
    }
  }

  /** The quoted entries, one rendered entry per line. */
  function RecentConversationsBlock(cs: seq<Conversation>): (r: string)
    ensures |cs| == 0 ==> r == ""
    ensures forall e :: e in RecentConversations(cs) ==> Contains(r, RenderEntry(e))
  {
    RenderedLinesFound(RecentConversations(cs));
    Join(RenderAll(RecentConversations(cs)), "\n")
  }

  /** The client's name and chapter. */
  function ClientLine(c: Contact): (r: string)
    ensures IsPrefix("Client: ", r) && |r| >= 8 + |c.name| && r[8..8 + |c.name|] == c.name
    ensures r[8 + |c.name|..] == " (Chapter " + ChapterText(c.chapter) + ")"
  {
    "Client: " + c.name + " (Chapter " + ChapterText(c.chapter) + ")"
  }

  /** The last-response field between `Last response: ` and ` days ago`. */
  function LastResponseLine(c: Contact, now: int): (r: string)
    ensures IsPrefix("Last response: ", r) && IsSuffix(" days ago", r) && |r| >= 24
    ensures r[15..|r| - 9] == LastResponseField(c, now)
  {
    "Last response: " + LastResponseField(c, now) + " days ago"
  }

  /** The follow-up count, in canonical decimal when it is not negative. */
  function FollowUpsLine(c: Contact): (r: string)
    ensures IsPrefix("Follow-ups sent: ", r) && r[17..] == IntToString(c.followUpCount)
    ensures c.followUpCount >= 0 ==> Canonical(r[17..]) && DigitsValue(r[17..]) == c.followUpCount
  {
    "Follow-ups sent: " + IntToString(c.followUpCount)
  }

  /** `uploaded/required` between `- Documents: ` and ` uploaded`. */
  function DocumentsLine(d: Documents): (r: string)
    ensures IsPrefix("- Documents: ", r) && IsSuffix(" uploaded", r) && |r| >= 22
    ensures r[13..|r| - 9] == IntToString(d.uploaded) + "/" + IntToString(d.required)
  {
    "- Documents: " + IntToString(d.uploaded) + "/" + IntToString(d.required) + " uploaded"
  }

  function FormsLine(f: Forms): (r: string)
    ensures f.complete <==> r == "- Forms: Complete"
    ensures !f.complete <==> r == "- Forms: Incomplete"
  {
    "- Forms: " + (if f.complete then "Complete" else "Incomplete")
  }

  /** The unpaid amount, flagged ` (OVERDUE)` exactly when the invoice is overdue. */
  function InvoicesLine(inv: Invoices): (r: string)
    ensures IsPrefix("- Invoices: $" + IntToString(inv.total - inv.paid) + " unpaid", r)
    ensures IsSuffix(" (OVERDUE)", r) <==> inv.overdue
    ensures |r| == |"- Invoices: $" + IntToString(inv.total - inv.paid) + " unpaid"| + (if inv.overdue then 10 else 0)
  {
    var amount := "- Invoices: $" + IntToString(inv.total - inv.paid) + " unpaid";
    OverdueSuffix(amount, inv.overdue);
    amount + (if inv.overdue then " (OVERDUE)" else "")
  }

  lemma OverdueSuffix(amount: string, overdue: bool)
    requires IsSuffix(" unpaid", amount)
    ensures var r := amount + (if overdue then " (OVERDUE)" else "");
      IsPrefix(amount, r) && (IsSuffix(" (OVERDUE)", r) <==> overdue)
  {
    var r := amount + (if overdue then " (OVERDUE)" else "");
    assert r[..|amount|] == amount;
    if !overdue && IsSuffix(" (OVERDUE)", r) {
      assert r == amount;
      SuffixesShareLastChar(" (OVERDUE)", " unpaid", r);
    }
  }

  /** The notes joined with `; `, or `None` when that join is empty. */
  function NotesField(notes: seq<string>): (r: string)
    ensures Join(notes, "; ") != "" ==> r == Join(notes, "; ")
    ensures (|notes| == 0 || notes == [""]) ==> r == "None"
    ensures r == "None" <==> (|notes| == 0 || notes == [""] || Join(notes, "; ") == "None")
  {
    JoinEmptyIff(notes, "; ");
    var joined := Join(notes, "; ");
    if joined != "" then joined else "None"
  }

  /** The notes field after `Notes: `. */
  function NotesLine(notes: seq<string>): (r: string)
    ensures IsPrefix("Notes: ", r) && r[7..] == NotesField(notes)
  {
    "Notes: " + NotesField(notes)
  }

  function EscalationInstructions(status: ContactStatus): string {
    if status == NeedsAttention then EscalationRequest else NoEscalation
  }

  /** The text filled into the template's slots. */
  datatype PromptFields = PromptFields(
    client: string, lastResponse: string, followUps: string, recent: string,
    documents: string, forms: string, invoices: string, notes: string, ending: string)

  /** The template's fixed text and slots, in order. */
  function Template(f: PromptFields): seq<string> {
    [ Intro,
      f.client, "\n",
      f.lastResponse, "\n",
      f.followUps, "\n\nRecent conversations:\n",
      f.recent, "\n\nPending items:\n",
      f.documents, "\n",
      f.forms, "\n",
      f.invoices,
      "\n\n", f.notes,
      Instructions,
      f.ending ]
  }

  /** Whatever fills the slots, the text carries the four slots about the client. */
  lemma TemplateCarriesContactSlots(f: PromptFields)
    ensures var r := Concat(Template(f));
      && Contains(r, f.client) && Contains(r, f.lastResponse)
      && Contains(r, f.followUps) && Contains(r, f.recent)
  {
    var pieces := Template(f);
    ConcatContainsPiece(pieces, 1);
    ConcatContainsPiece(pieces, 3);
    ConcatContainsPiece(pieces, 5);
    ConcatContainsPiece(pieces, 7);
  }

  /** Whatever fills the slots, the text carries the four slots about the case. */
  lemma TemplateCarriesCaseSlots(f: PromptFields)
    ensures var r := Concat(Template(f));
      && Contains(r, f.documents) && Contains(r, f.forms)
      && Contains(r, f.invoices) && Contains(r, f.notes)
  {
    var pieces := Template(f);
    ConcatContainsPiece(pieces, 9);
    ConcatContainsPiece(pieces, 11);
    ConcatContainsPiece(pieces, 13);
    ConcatContainsPiece(pieces, 15);
  }

  /** The slots filled in for a contact. */
  function ContactFields(c: Contact, status: ContactStatus, now: int): PromptFields {
    PromptFields(
      ClientLine(c), LastResponseLine(c, now), FollowUpsLine(c),
      RecentConversationsBlock(c.conversations),
      DocumentsLine(c.pendingItems.documents), FormsLine(c.pendingItems.forms),
      InvoicesLine(c.pendingItems.invoices), NotesLine(c.notes),
      EscalationInstructions(status))
  }

  /**
   * `buildPrompt(contact, status)`: the template filled in for the contact. It
   * opens with the fixed introduction and ends with the escalation request
   * exactly when the status is `needs-attention` (with the refusal line
   * otherwise).
   */
  function BuildPrompt(c: Contact, status: ContactStatus, now: int): (r: string)
    ensures IsPrefix(Intro, r)
    ensures IsSuffix(EscalationRequest, r) <==> status == NeedsAttention
    ensures IsSuffix(NoEscalation, r) <==> status != NeedsAttention
  {
    var pieces := Template(ContactFields(c, status, now));
    ConcatStartsWithFirst(pieces);
    ConcatEndsWithLast(pieces);
    EndingDecidesEscalation(Concat(pieces), status);
    Concat(pieces)
  }

  /** The prompt carries every line about the client and the case. */
  lemma PromptCarriesFields(c: Contact, status: ContactStatus, now: int)
    ensures var r := BuildPrompt(c, status, now);
      && Contains(r, ClientLine(c))
      && Contains(r, LastResponseLine(c, now))
      && Contains(r, FollowUpsLine(c))
      && Contains(r, RecentConversationsBlock(c.conversations))
      && Contains(r, DocumentsLine(c.pendingItems.documents))
      && Contains(r, FormsLine(c.pendingItems.forms))
      && Contains(r, InvoicesLine(c.pendingItems.invoices))
      && Contains(r, NotesLine(c.notes))
  {
    TemplateCarriesContactSlots(ContactFields(c, status, now));
    TemplateCarriesCaseSlots(ContactFields(c, status, now));
  }

  /** A text ending in the instructions for `status` ends in the escalation
      request exactly when the status is `needs-attention`. */
  lemma EndingDecidesEscalation(r: string, status: ContactStatus)
    requires IsSuffix(EscalationInstructions(status), r)
    ensures IsSuffix(EscalationRequest, r) <==> status == NeedsAttention
    ensures IsSuffix(NoEscalation, r) <==> status != NeedsAttention
  {
    if IsSuffix(EscalationRequest, r) && IsSuffix(NoEscalation, r) {
      SuffixesShareLastChar(NoEscalation, EscalationRequest, r);
    }
  }

  /** The static fallback: the canned summary, with its escalation only when the
      contact needs attention. */
  function StaticSummary(mock: MockSummary, status: ContactStatus): (r: SummaryResult)
    ensures r.summary == mock.summary
    ensures r.escalation.Some? ==> status == NeedsAttention && r.escalation == mock.escalation
    ensures status == NeedsAttention ==> r.escalation == mock.escalation
  {
    SummaryResult(mock.summary, if status == NeedsAttention then mock.escalation else None)
  }

  /**
   * `generateContactSummary(contact)` at instant `now`, given whether a model
   * credential is configured. Without one, the canned entry is looked up among
   * the table's own entries; reading `summary` of a missing entry throws.
   */
  function GenerateContactSummary(c: Contact, now: int, hasKey: bool, mocks: MockSummaries): (g: Generation)
    ensures g.Stream? <==> hasKey
    ensures g.Threw? <==> !hasKey && c.id !in mocks
    ensures g.Threw? ==> g.message == MissingEntryMessage
    ensures g.Static? ==> c.id in mocks && g.data.summary == mocks[c.id].summary
    ensures g.Static? ==>
      (g.data.escalation.Some? ==> Status.CalculateStatus(c, now) == NeedsAttention) &&
      (Status.CalculateStatus(c, now) == NeedsAttention ==> g.data.escalation == mocks[c.id].escalation)
    ensures g.Stream? ==> g.prompt == BuildPrompt(c, Status.CalculateStatus(c, now), now)
    ensures g.Stream? ==> (IsSuffix(EscalationRequest, g.prompt) <==> Status.NeedsAttentionRule(c, now))
  {
    var status := Status.CalculateStatus(c, now);
    if !hasKey then
      if c.id in mocks then Static(StaticSummary(mocks[c.id], status)) else Threw(MissingEntryMessage)
    else Stream(BuildPrompt(c, status, now))
  }
}

=== FILE: icon_rail.dfy ===
/**
 * The narrow icon rail on the left of every page: its nine items and which
 * one is highlighted for the current path.
 */
module IconRail {
  import opened Strings

  /** An item of the rail: its caption and the path it stands for. */
  datatype NavItem = NavItem(name: string, href: string)

  const Navigation: seq<NavItem> := [
    NavItem("Home", "/"),
    NavItem("Inbox", "/inbox"),
    NavItem("Messaging", "/messages"),
    NavItem("Workflows", "/help"),
    NavItem("Content", "/sync"),
    NavItem("Contacts", "/contacts"),
    NavItem("Transactions", "/billing"),
    NavItem("Bookings", "/calendar"),
    NavItem("Workflow Reports", "/documents")
  ]

  const ContactsHref := "/contacts"

  /** The prefix shared by every contact's pages. */
  const ContactPagePrefix := "/contact/"

  /** `isActive(href)`: Contacts on the list and on any contact's pages; every
      other item only on its own path. */
  function IsActive(pathname: string, href: string): (r: bool)
    ensures pathname == href ==> r
    ensures r && href != ContactsHref ==> pathname == href
    ensures href == ContactsHref && IsPrefix(ContactPagePrefix, pathname) ==> r
  {
    if href == ContactsHref then pathname == ContactsHref || IsPrefix(ContactPagePrefix, pathname)
    else pathname == href
  }

  /** Every contact page highlights Contacts. */
  lemma ContactPagesActivateContacts(id: string, rest: string)
    ensures IsActive(ContactPagePrefix + id + rest, ContactsHref)
  {
    var p := ContactPagePrefix + id + rest;
    assert p[..|ContactPagePrefix|] == ContactPagePrefix;
  }

  /** A path below the list, `/contacts/...`, highlights nothing: it is neither
      the list nor a contact's page. */
  lemma BelowContactsListInactive(rest: string, i: nat)
    requires i < |Navigation|
    ensures !IsActive(ContactsHref + "/" + rest, Navigation[i].href)
  {
    var p := ContactsHref + "/" + rest;
    assert p[8] == 's' && ContactPagePrefix[8] == '/';
    assert |p| > 9;
  }

  /** Home is highlighted only on `/` itself. */
  lemma HomeOnlyOnRoot(pathname: string)
    ensures IsActive(pathname, Navigation[0].href) <==> pathname == "/"
  {
  }

  /** No item other than Contacts matches longer paths below its own. */
  lemma NoPrefixMatch(i: nat, rest: string)
    requires i < |Navigation| && Navigation[i].href != ContactsHref
    requires rest != ""
    ensures !IsActive(Navigation[i].href + rest, Navigation[i].href)
  {
    assert |Navigation[i].href + rest| > |Navigation[i].href|;
  }

  /** No item's own path is a contact page, and none but Contacts is the list. */
  lemma OtherHrefsOutsideContacts(i: nat)
    requires i < |Navigation| && i != 5
    ensures Navigation[i].href != ContactsHref
    ensures !IsPrefix(ContactPagePrefix, Navigation[i].href)
  {
    var h := Navigation[i].href;
    if |h| >= |ContactPagePrefix| {
      assert h == "/messages" || h == "/calendar" || h == "/documents";
      assert h[1] == 'm' || h[1] == 'd' || h[2] == 'a';
      assert h[..|ContactPagePrefix|][1] == h[1] && h[..|ContactPagePrefix|][2] == h[2];
    }
  }

  /** For any path, at most one item is highlighted. */
  lemma AtMostOneActive(pathname: string, i: nat, j: nat)
    requires i < |Navigation| && j < |Navigation|
    requires IsActive(pathname, Navigation[i].href) && IsActive(pathname, Navigation[j].href)
    ensures i == j
  {
    if i != 5 { OtherHrefsOutsideContacts(i); }
    if j != 5 { OtherHrefsOutsideContacts(j); }
  }
}

=== FILE: lists.dfy ===
/** The JavaScript array operations the dashboard relies on: `filter` and `slice`. */
module Lists {

  function Min(a: int, b: int): int { if a <= b then a else b }

  /**
   * `a` is an order-preserving subsequence of `b`: the elements of `a` can be
   * matched, left to right, against elements of `b` appearing in the same order.
   */
  ghost predicate IsSubsequence<T>(a: seq<T>, b: seq<T>)
    decreases |b|
  {
    |a| == 0 || (|b| > 0 && if a[0] == b[0] then IsSubsequence(a[1..], b[1..]) else IsSubsequence(a, b[1..]))
  }

  /** `s.filter(p)`: keeps exactly the elements satisfying `p`, in their original order. */
  function Filter<T(!new)>(p: T -> bool, s: seq<T>): (r: seq<T>)
    ensures |r| <= |s|
    ensures forall x :: x in r <==> x in s && p(x)
    ensures IsSubsequence(r, s)
    ensures forall x :: multiset(r)[x] == if p(x) then multiset(s)[x] else 0
  {
    if |s| == 0 then []
    else
      assert s == [s[0]] + s[1..];
      if p(s[0]) then [s[0]] + Filter(p, s[1..])
      else Filter(p, s[1..])
  }

  /** When every element passes, `filter` returns the array unchanged. */
  lemma {:induction false} FilterAll<T(!new)>(p: T -> bool, s: seq<T>)
    requires forall i :: 0 <= i < |s| ==> p(s[i])
    ensures Filter(p, s) == s
  {
    if |s| > 0 {
      FilterAll(p, s[1..]);
    }
  }

  /** Two tests that agree on every element select the same elements. */
  lemma {:induction false} FilterCongruent<T(!new)>(p: T -> bool, q: T -> bool, s: seq<T>)
    requires forall i :: 0 <= i < |s| ==> p(s[i]) == q(s[i])
    ensures Filter(p, s) == Filter(q, s)
  {
    if |s| > 0 {
      FilterCongruent(p, q, s[1..]);
    }
  }

  /** `s.slice(-n)` for `n > 0`: the last `min(n, |s|)` elements. */
  function LastN<T>(s: seq<T>, n: nat): (r: seq<T>)
    requires n > 0
    ensures |r| == Min(n, |s|)
    ensures s == s[..|s| - |r|] + r
  {
    if |s| <= n then s else s[|s| - n..]
  }
}

=== FILE: main_navigation.dfy ===
/**
 * The full-width navigation drawer used on small screens: the same nine items
 * as the icon rail, of which only Contacts is ever highlighted or does anything.
 */
module MainNavigation {
  import opened Wrappers
  import opened Strings
  import IconRail

  const ItemNames: seq<string> := [
    "Home", "Inbox", "Messaging", "Workflows", "Content",
    "Contacts", "Transactions", "Bookings", "Workflow Reports"
  ]

  /** The drawer lists the rail's items, in the rail's order. */
  lemma SameItemsAsIconRail()
    ensures |ItemNames| == |IconRail.Navigation|
    ensures forall i :: 0 <= i < |ItemNames| ==> ItemNames[i] == IconRail.Navigation[i].name
  {
  }

  /** `isContactsActive` */
  function IsContactsActive(currentPath: string): (r: bool)
    ensures r <==> IconRail.IsActive(currentPath, IconRail.ContactsHref)
  {
    currentPath == "/contacts" || IsPrefix("/contact/", currentPath)
  }

  /** An item is highlighted only if it is Contacts and Contacts is active. */
  function IsItemActive(currentPath: string, name: string): (r: bool)
    ensures r ==> name == IconRail.Navigation[5].name
    ensures r <==> name == "Contacts" && IconRail.IsActive(currentPath, IconRail.ContactsHref)
  {
    name == "Contacts" && IsContactsActive(currentPath)
  }

  /** The drawer and the rail agree on when Contacts is highlighted. */
  lemma ContactsAgreesWithIconRail(currentPath: string)
    ensures IsContactsActive(currentPath) <==> IconRail.IsActive(currentPath, IconRail.ContactsHref)
  {
  }

  /** Only Contacts is ever highlighted. */
  lemma OnlyContactsActive(currentPath: string, i: nat)
    requires i < |ItemNames| && IsItemActive(currentPath, ItemNames[i])
    ensures i == 5
  {
  }

  /** Whatever the drawer highlights, the rail highlights the same item. */
  lemma DrawerHighlightImpliesRail(currentPath: string, i: nat)
    requires i < |ItemNames| && IsItemActive(currentPath, ItemNames[i])
    ensures IconRail.IsActive(currentPath, IconRail.Navigation[i].href)
  {
    OnlyContactsActive(currentPath, i);
    ContactsAgreesWithIconRail(currentPath);
  }

  /** What a click does: an optional navigation and whether the drawer closes. */
  datatype Click = Click(push: Option<string>, close: bool)

  /** The click handler: Contacts navigates to the list and calls `onClose` when
      one was given; every other item does nothing. */
  function OnClick(name: string, hasOnClose: bool): (r: Click)
    ensures r.push.Some? <==> name == "Contacts"
    ensures r.close <==> name == "Contacts" && hasOnClose
    ensures r.push.Some? ==> r.push.value == IconRail.ContactsHref
    ensures r.push.Some? ==> IsItemActive(r.push.value, name)
  {
    if name == "Contacts" then Click(Some("/contacts"), hasOnClose) else Click(None, false)
  }
}

=== FILE: pending_items.dfy ===
/**
 * The pending-items card: an "all complete" banner, or three columns
 * (documents, forms, invoices) each showing either a complete mark or what is
 * still outstanding.
 */
module PendingItemsView {
  import opened Types
  import opened Strings

  /** The documents column: complete, or `uploaded/required` uploaded. */
  datatype DocumentsCell = DocumentsComplete | DocumentsProgress(uploaded: int, required: int)

  /** The forms column: complete, or the name of the outstanding form. */
  datatype FormsCell = FormsComplete | FormsOutstanding(name: string)

  /** The invoices column: paid, or the unpaid amount and whether it is overdue. */
  datatype InvoicesCell = InvoicesPaid | InvoicesOwing(amount: int, overdue: bool)

  /** The card: the banner, or the three columns. */
  datatype Card = AllCompleteBanner | Columns(documents: DocumentsCell, forms: FormsCell, invoices: InvoicesCell)

  /** `allComplete` */
  function AllComplete(items: PendingItems): (r: bool)
    ensures r ==> items.invoices.paid == items.invoices.total && !items.invoices.overdue
    ensures r <==>
      && DocumentsColumn(items.documents).DocumentsComplete?
      && FormsColumn(items.forms).FormsComplete?
      && InvoicesColumn(items.invoices).InvoicesPaid?
  {
    && items.documents.uploaded == items.documents.required
    && items.forms.complete
    && items.invoices.paid == items.invoices.total
    && !items.invoices.overdue
  }

  function DocumentsColumn(d: Documents): (r: DocumentsCell)
    ensures r.DocumentsComplete? <==> d.uploaded == d.required
    ensures r.DocumentsProgress? ==> r.uploaded == d.uploaded && r.required == d.required
  {
    if d.uploaded == d.required then DocumentsComplete else DocumentsProgress(d.uploaded, d.required)
  }

  function FormsColumn(f: Forms): (r: FormsCell)
    ensures r.FormsComplete? <==> f.complete
    ensures r.FormsOutstanding? ==> r.name == f.name
  {
    if f.complete then FormsComplete else FormsOutstanding(f.name)
  }

  function InvoicesColumn(inv: Invoices): (r: InvoicesCell)
    ensures r.InvoicesPaid? <==> inv.paid == inv.total && !inv.overdue
    ensures r.InvoicesOwing? ==> r.amount == inv.total - inv.paid && r.overdue == inv.overdue
  {
    if inv.paid == inv.total && !inv.overdue then InvoicesPaid
    else InvoicesOwing(inv.total - inv.paid, inv.overdue)
  }

  /** The text of an owing invoice cell: `$<amount>` then ` overdue` or ` pending`. */
  function OwingText(amount: int, overdue: bool): (r: string)
    ensures IsPrefix("$" + IntToString(amount), r)
    ensures IsSuffix(" overdue", r) <==> overdue
    ensures IsSuffix(" pending", r) <==> !overdue
    ensures r[|"$" + IntToString(amount)|..] == (if overdue then " overdue" else " pending")
  {
    var r := "$" + IntToString(amount) + (if overdue then " overdue" else " pending");
    assert r[..|"$" + IntToString(amount)|] == "$" + IntToString(amount);
    assert r[|r| - 8..] == (if overdue then " overdue" else " pending");
    r
  }

  /** The whole card. */
  function Render(items: PendingItems): (r: Card)
    ensures r.AllCompleteBanner? <==> AllComplete(items)
    ensures r.Columns? ==>
      && r.documents == DocumentsColumn(items.documents)
      && r.forms == FormsColumn(items.forms)
      && r.invoices == InvoicesColumn(items.invoices)
  {
    if AllComplete(items) then AllCompleteBanner
    else Columns(DocumentsColumn(items.documents), FormsColumn(items.forms), InvoicesColumn(items.invoices))
  }

  /** The banner is shown exactly when each column on its own would report complete. */
  lemma AllCompleteIffEveryColumn(items: PendingItems)
    ensures AllComplete(items) <==>
      && DocumentsColumn(items.documents).DocumentsComplete?
      && FormsColumn(items.forms).FormsComplete?
      && InvoicesColumn(items.invoices).InvoicesPaid?
  {
  }

  /** A fully paid but overdue invoice still shows as owing: `$0 overdue`. */
  lemma PaidButOverdue(inv: Invoices)
    requires inv.paid == inv.total && inv.overdue
    ensures InvoicesColumn(inv) == InvoicesOwing(0, true)
    ensures OwingText(0, true) == "$0 overdue"
  {
    assert IntToString(0) == "0";
  }
}

=== FILE: status.dfy ===
/**
 * Contact-status classification (`calculateStatus`): a three-way priority
 * cascade over a contact and its conversation history, evaluated at an
 * explicit instant `now`.
 */
module Status {
  import opened Wrappers
  import opened Types
  import opened Utils
  import opened Lists

  /** Follow-ups after which an unresponsive client needs attention. */
  const FollowUpThreshold := 3

  /** Days of silence after which an unresponsive client needs attention. */
  const StaleDays := 10

  predicate IsClientAction(c: Conversation) {
    c.kind == ClientResponse
  }

  /** Attorney messages and AI follow-ups; system notifications are neither side. */
  predicate IsAttorneyAction(c: Conversation) {
    c.kind == AttorneyMessage || c.kind == AiFollowup
  }

  /** `conversations.filter(c => c.type === 'client-response')`: every client
      response, each occurrence kept, in order. */
  function ClientActions(cs: seq<Conversation>): (r: seq<Conversation>)
    ensures forall x :: x in r <==> x in cs && IsClientAction(x)
    ensures forall x :: multiset(r)[x] == if IsClientAction(x) then multiset(cs)[x] else 0
    ensures IsSubsequence(r, cs)
  {
    Filter(IsClientAction, cs)
  }

  /** The attorney-side filter: every attorney message and AI follow-up, each
      occurrence kept, in order. */
  function AttorneyActions(cs: seq<Conversation>): (r: seq<Conversation>)
    ensures forall x :: x in r <==> x in cs && IsAttorneyAction(x)
    ensures forall x :: multiset(r)[x] == if IsAttorneyAction(x) then multiset(cs)[x] else 0
    ensures IsSubsequence(r, cs)
  {
    Filter(IsAttorneyAction, cs)
  }

  /**
   * The `reduce` step over the rest of a list: keep the running latest entry
   * unless the next one is strictly later. The result is one of the entries
   * and no entry is later than it.
   */
  function LatestFrom(latest: Conversation, rest: seq<Conversation>): (r: Conversation)
    ensures r == latest || r in rest
    ensures latest.timestamp <= r.timestamp
    ensures forall x :: x in rest ==> x.timestamp <= r.timestamp
    decreases |rest|
  {
    if |rest| == 0 then latest
    else LatestFrom(if rest[0].timestamp > latest.timestamp then rest[0] else latest, rest[1..])
  }

  /** The most recent entry of a list, or None for an empty list. */
  function MostRecent(cs: seq<Conversation>): (r: Option<Conversation>)
    ensures r.None? <==> |cs| == 0
    ensures r.Some? ==> r.value in cs && forall x :: x in cs ==> x.timestamp <= r.value.timestamp
  {
    if |cs| == 0 then None else Some(LatestFrom(cs[0], cs[1..]))
  }

  /**
   * Reference definition of an unreviewed client action: some client response
   * is strictly later than every attorney message and AI follow-up.
   */
  ghost predicate HasUnreviewedClientAction(cs: seq<Conversation>) {
    exists c :: c in cs && IsClientAction(c) &&
      forall a :: a in cs && IsAttorneyAction(a) ==> a.timestamp < c.timestamp
  }

  /**
   * `checkUnreviewedClientAction`: the latest client response is later than the
   * latest attorney-side entry, or there is no attorney-side entry at all.
   */
  function CheckUnreviewedClientAction(cs: seq<Conversation>): (r: bool)
    ensures r <==> HasUnreviewedClientAction(cs)
  {
    var client := MostRecent(ClientActions(cs));
    var attorney := MostRecent(AttorneyActions(cs));
    if attorney.None? && client.Some? then true
    else if client.None? || attorney.None? then false
    else client.value.timestamp > attorney.value.timestamp
  }

  /** Whole days since the last client response, or None ("never responded",
      which counts as infinitely many days). */
  function DaysSinceResponse(c: Contact, now: int): (r: Option<nat>)
    ensures r.None? <==> c.lastClientResponse.None?
    ensures r.Some? ==>
      var gap := Abs(now - c.lastClientResponse.value);
      r.value * MsPerDay <= gap < (r.value + 1) * MsPerDay
  {
    match c.lastClientResponse
    case Some(t) => Some(DaysBetween(t, now))
    case None => None
  }

  /**
   * Reference definition of rule 1, stated in milliseconds: an overdue invoice,
   * or at least three follow-ups with no response for ten days' worth of time.
   */
  ghost predicate NeedsAttentionRule(c: Contact, now: int) {
    || c.pendingItems.invoices.overdue
    || (c.followUpCount >= FollowUpThreshold &&
        (c.lastClientResponse.None? || Abs(now - c.lastClientResponse.value) >= StaleDays * MsPerDay))
  }

  /** The day count and the millisecond form of "silent for ten days" agree. */
  lemma StaleIff(c: Contact, now: int)
    ensures var d := DaysSinceResponse(c, now);
      (d.None? || d.value >= StaleDays) <==>
      (c.lastClientResponse.None? || Abs(now - c.lastClientResponse.value) >= StaleDays * MsPerDay)
  {
    if c.lastClientResponse.Some? {
      AtLeastDaysIff(c.lastClientResponse.value, now, StaleDays);
    }
  }

  /** `calculateStatus(contact)` at instant `now`. */
  function CalculateStatus(c: Contact, now: int): (r: ContactStatus)
    ensures r == NeedsAttention <==> NeedsAttentionRule(c, now)
    ensures r == WaitingForYou <==> !NeedsAttentionRule(c, now) && HasUnreviewedClientAction(c.conversations)
    ensures r == WaitingForThem <==> !NeedsAttentionRule(c, now) && !HasUnreviewedClientAction(c.conversations)
  {
    var daysSince := DaysSinceResponse(c, now);
    StaleIff(c, now);
    if (c.followUpCount >= FollowUpThreshold && (daysSince.None? || daysSince.value >= StaleDays))
       || c.pendingItems.invoices.overdue
    then NeedsAttention
    else if CheckUnreviewedClientAction(c.conversations) then WaitingForYou
    else WaitingForThem
  }

  // ---------------------------------------------------------------------------
  // Properties of the cascade
  // ---------------------------------------------------------------------------

  /** An overdue invoice always needs attention, whatever else the contact holds. */
  lemma OverdueNeedsAttention(c: Contact, now: int)
    requires c.pendingItems.invoices.overdue
    ensures CalculateStatus(c, now) == NeedsAttention
  {
  }

  /** Three follow-ups and at least ten days of silence need attention. */
  lemma StaleFollowUpsNeedAttention(c: Contact, now: int)
    requires c.followUpCount >= 3
    requires c.lastClientResponse.Some? && DaysBetween(c.lastClientResponse.value, now) >= 10
    ensures CalculateStatus(c, now) == NeedsAttention
  {
    AtLeastDaysIff(c.lastClientResponse.value, now, StaleDays);
  }

  /** A client who never responded counts as infinitely stale. */
  lemma NeverRespondedNeedsAttention(c: Contact, now: int)
    requires c.followUpCount >= 3 && c.lastClientResponse.None?
    ensures CalculateStatus(c, now) == NeedsAttention
  {
  }

  /** Below three follow-ups and with no overdue invoice, no amount of silence
      makes a contact need attention. */
  lemma FewFollowUpsNeverNeedAttention(c: Contact, now: int)
    requires c.followUpCount < 3 && !c.pendingItems.invoices.overdue
    ensures CalculateStatus(c, now) != NeedsAttention
  {
  }

  /** Rule 1 outranks rule 2: an unreviewed client action does not prevent
      `needs-attention`, and otherwise it yields `waiting-for-you`. */
  lemma UnreviewedActionOutranked(c: Contact, now: int)
    requires HasUnreviewedClientAction(c.conversations)
    ensures CalculateStatus(c, now) == (if NeedsAttentionRule(c, now) then NeedsAttention else WaitingForYou)
  {
  }

  /** No conversations and no rule-1 condition: the default `waiting-for-them`. */
  lemma EmptyHistoryWaitsForThem(c: Contact, now: int)
    requires |c.conversations| == 0 && !NeedsAttentionRule(c, now)
    ensures CalculateStatus(c, now) == WaitingForThem
  {
  }

  /** A client response and an attorney entry at the same instant: nothing is unreviewed. */
  lemma EqualTimestampsNotUnreviewed(client: Conversation, attorney: Conversation)
    requires IsClientAction(client) && IsAttorneyAction(attorney)
    requires client.timestamp == attorney.timestamp
    ensures !CheckUnreviewedClientAction([client, attorney])
    ensures !CheckUnreviewedClientAction([attorney, client])
  {
    assert attorney in [client, attorney];
    assert attorney in [attorney, client];
  }

  /** A lone client response is unreviewed. */
  lemma LoneClientResponseUnreviewed(client: Conversation)
    requires IsClientAction(client)
    ensures CheckUnreviewedClientAction([client])
  {
    assert client in [client];
  }

  /** System notifications never affect the check: inserting one anywhere changes nothing. */
  lemma SystemEntriesIgnored(cs: seq<Conversation>, k: nat, e: Conversation)
    requires k <= |cs| && e.kind == System
    ensures CheckUnreviewedClientAction(cs[..k] + [e] + cs[k..]) == CheckUnreviewedClientAction(cs)
  {
    var cs' := cs[..k] + [e] + cs[k..];
    assert cs == cs[..k] + cs[k..];
    assert forall x :: x in cs' <==> x in cs || x == e;
    assert !IsClientAction(e) && !IsAttorneyAction(e);
    if HasUnreviewedClientAction(cs) {
      var c :| c in cs && IsClientAction(c) &&
        forall a :: a in cs && IsAttorneyAction(a) ==> a.timestamp < c.timestamp;
      assert c in cs';
    }
    if HasUnreviewedClientAction(cs') {
      var c :| c in cs' && IsClientAction(c) &&
        forall a :: a in cs' && IsAttorneyAction(a) ==> a.timestamp < c.timestamp;
      assert c in cs;
    }
  }

  // ---------------------------------------------------------------------------
  // The scenarios of the source's tests, at a fixed instant
  // ---------------------------------------------------------------------------

  /** Three follow-ups and a response eleven days ago: `needs-attention`;
      the same contact with one follow-up and no history: `waiting-for-them`. */
  lemma ElevenDaysScenario(c: Contact, now: int)
    requires c.lastClientResponse == Some(now - 11 * MsPerDay)
    requires !c.pendingItems.invoices.overdue && |c.conversations| == 0
    ensures CalculateStatus(c.(followUpCount := 3), now) == NeedsAttention
    ensures CalculateStatus(c.(followUpCount := 1), now) == WaitingForThem
  {
  }

  /** A lone client response, with no follow-ups and nothing overdue: `waiting-for-you`. */
  lemma LoneResponseWaitsForYou(c: Contact, now: int)
    requires c.followUpCount == 0 && !c.pendingItems.invoices.overdue
    requires |c.conversations| == 1 && IsClientAction(c.conversations[0])
    ensures CalculateStatus(c, now) == WaitingForYou
  {
    LoneClientResponseUnreviewed(c.conversations[0]);
    assert c.conversations == [c.conversations[0]];
  }

  /** A response today with no follow-ups and no history is the default. */
  lemma FreshContactWaitsForThem(c: Contact, now: int)
    requires c.lastClientResponse == Some(now) && c.followUpCount == 0
    requires !c.pendingItems.invoices.overdue && |c.conversations| == 0
    ensures CalculateStatus(c, now) == WaitingForThem
  {
  }
}

=== FILE: strings.dfy ===
/**
 * The JavaScript string operations the dashboard relies on, over `seq<char>`:
 * `startsWith`, `endsWith`, `includes`, ASCII `toLowerCase` / `toUpperCase`,
 * decimal rendering of integer numbers in template literals, `join` and
 * `split` on a one-character separator.
 */
module Strings {

  // ---------------------------------------------------------------------------
  // Prefix, suffix, substring
  // ---------------------------------------------------------------------------

  /** `s.startsWith(p)` */
  predicate IsPrefix(p: string, s: string) {
    |p| <= |s| && s[..|p|] == p
  }

  /** `s.endsWith(p)` */
  predicate IsSuffix(p: string, s: string) {
    |p| <= |s| && s[|s| - |p|..] == p
  }

  /** `t` occurs in `s` starting at index `i`. */
  predicate OccursAt(s: string, t: string, i: int) {
    0 <= i <= |s| - |t| && s[i..i + |t|] == t
  }

  /** `s.includes(t)`: `t` occurs in `s` at some position. */
  predicate Contains(s: string, t: string) {
    exists i | 0 <= i <= |s| - |t| :: OccursAt(s, t, i)
  }

  lemma ContainsEmpty(s: string)
    ensures Contains(s, "")
  {
    assert OccursAt(s, "", 0);
  }

  lemma ContainsSelf(s: string)
    ensures Contains(s, s)
  {
    assert OccursAt(s, s, 0);
  }

  lemma ContainsMiddle(a: string, t: string, b: string)
    ensures Contains(a + t + b, t)
  {
    var s := a + t + b;
    assert s[|a|..|a| + |t|] == t;
    assert OccursAt(s, t, |a|);
  }

  /** Text found inside `s` is still found once `s` is surrounded by more text. */
  lemma ContainsWithin(a: string, s: string, b: string, t: string)
    requires Contains(s, t)
    ensures Contains(a + s + b, t)
  {
    var i :| 0 <= i <= |s| - |t| && OccursAt(s, t, i);
    var w := a + s + b;
    assert w[|a| + i..|a| + i + |t|] == s[i..i + |t|];
    assert OccursAt(w, t, |a| + i);
  }

  /** Two suffixes of one string that are both non-empty end in the same character. */
  lemma SuffixesShareLastChar(p: string, q: string, s: string)
    requires IsSuffix(p, s) && IsSuffix(q, s) && |p| > 0 && |q| > 0
    ensures p[|p| - 1] == q[|q| - 1]
  {
    assert p[|p| - 1] == s[|s| - 1];
    assert q[|q| - 1] == s[|s| - 1];
  }

  // ---------------------------------------------------------------------------
  // ASCII case mapping
  // ---------------------------------------------------------------------------

  predicate IsAsciiUpper(c: char) { 'A' <= c <= 'Z' }

  predicate IsAsciiLower(c: char) { 'a' <= c <= 'z' }

  function LowerChar(c: char): char {
    if IsAsciiUpper(c) then (c as int + 32) as char else c
  }

  function UpperChar(c: char): char {
    if IsAsciiLower(c) then (c as int - 32) as char else c
  }

  /** `s.toLowerCase()` on ASCII text */
  function Lower(s: string): (r: string)
    ensures |r| == |s|
    ensures forall i :: 0 <= i < |s| ==> r[i] == LowerChar(s[i])
  {
    seq(|s|, i requires 0 <= i < |s| => LowerChar(s[i]))
  }

  /** `s.toUpperCase()` on ASCII text */
  function Upper(s: string): (r: string)
    ensures |r| == |s|
    ensures forall i :: 0 <= i < |s| ==> r[i] == UpperChar(s[i])
  {
    seq(|s|, i requires 0 <= i < |s| => UpperChar(s[i]))
  }

  /** Lower-casing forgets whatever upper-casing did: the two agree on case-folded text. */
  lemma LowerOfUpper(s: string)
    ensures Lower(Upper(s)) == Lower(s)
  {
    forall i | 0 <= i < |s|
      ensures Lower(Upper(s))[i] == Lower(s)[i]
    {
      var c := s[i];
      if IsAsciiLower(c) {
        assert UpperChar(c) as int == c as int - 32;
        assert LowerChar(UpperChar(c)) == c;
      }
    }
  }

  // ---------------------------------------------------------------------------
  // Decimal rendering of integers (a number inside a template literal)
  // ---------------------------------------------------------------------------

  predicate IsDigit(c: char) { '0' <= c <= '9' }

  predicate AllDigits(s: string) {
    forall i :: 0 <= i < |s| ==> IsDigit(s[i])
  }

  function DigitChar(d: nat): char
    requires d < 10
  {
    ('0' as int + d) as char
  }

  /** Decimal digits of `n`, most significant first, with no leading zero. */
  function NatToString(n: nat): (s: string)
    ensures |s| >= 1
    ensures AllDigits(s)
    ensures |s| > 1 ==> s[0] != '0'
    decreases n
  {
    if n < 10 then [DigitChar(n)] else NatToString(n / 10) + [DigitChar(n % 10)]
  }

  /** The number a string of decimal digits denotes. */
  function DigitsValue(s: string): nat
    requires AllDigits(s)
  {
    if s == [] then 0 else DigitsValue(s[..|s| - 1]) * 10 + (s[|s| - 1] as int - '0' as int)
  }

  /** Reading back the digits of `n` gives `n`. */
  lemma {:induction false} NatToStringRoundTrip(n: nat)
    ensures DigitsValue(NatToString(n)) == n
  {
    var s := NatToString(n);
    if n >= 10 {
      NatToStringRoundTrip(n / 10);
      assert s[..|s| - 1] == NatToString(n / 10);
    }
  }

  /** Canonical decimal text: digits only, and no leading zero unless it is the
      single digit `0`. */
  predicate Canonical(s: string) {
    |s| >= 1 && AllDigits(s) && (|s| > 1 ==> s[0] != '0')
  }

  /** A digit string whose first digit is not zero denotes a positive number. */
  lemma {:induction false} LeadingDigitPositive(s: string)
    requires |s| >= 1 && AllDigits(s) && s[0] != '0'
    ensures DigitsValue(s) >= 1
  {
    if |s| > 1 {
      LeadingDigitPositive(s[..|s| - 1]);
    }
  }

  /** The rendering of `n` is the only canonical text denoting `n`: a number
      in a template literal has exactly one form, without leading zeros. */
  lemma {:induction false} CanonicalDigitsUnique(s: string, n: nat)
    requires Canonical(s) && DigitsValue(s) == n
    ensures s == NatToString(n)
  {
    var init := s[..|s| - 1];
    var d := s[|s| - 1] as int - '0' as int;
    if |s| == 1 {
      assert init == [];
      assert s == [DigitChar(n)];
    } else {
      assert init[0] == s[0];
      LeadingDigitPositive(init);
      assert n / 10 == DigitsValue(init) && n % 10 == d;
      CanonicalDigitsUnique(init, n / 10);
      assert s == init + [DigitChar(d)];
    }
  }

  /** Decimal rendering of an integer, with a leading `-` when negative. */
  function IntToString(i: int): (s: string)
    ensures |s| >= 1
    ensures i >= 0 <==> AllDigits(s)
    ensures i < 0 ==> s[0] == '-' && AllDigits(s[1..]) && DigitsValue(s[1..]) == -i
    ensures i >= 0 ==> DigitsValue(s) == i
    ensures i >= 0 ==> Canonical(s)
    ensures i < 0 ==> Canonical(s[1..])
  {
    if i < 0 then
      NatToStringRoundTrip(-i);
      var s := "-" + NatToString(-i);
      assert s[1..] == NatToString(-i);
      assert !IsDigit(s[0]);
      s
    else
      NatToStringRoundTrip(i);
      NatToString(i)
  }

  // ---------------------------------------------------------------------------
  // join / split
  // ---------------------------------------------------------------------------

  /** `parts.join(sep)` */
  function Join(parts: seq<string>, sep: string): string
  {
    if |parts| == 0 then ""
    else if |parts| == 1 then parts[0]
    else parts[0] + sep + Join(parts[1..], sep)
  }

  /** The join is empty exactly for no parts or the single empty part. */
  lemma JoinEmptyIff(parts: seq<string>, sep: string)
    requires |sep| > 0
    ensures Join(parts, sep) == "" <==> (|parts| == 0 || parts == [""])
  {
    if |parts| > 1 {
      assert |Join(parts, sep)| >= |sep|;
    }
  }

  /** Every part can be found in the joined text. */
  lemma {:induction false} JoinContainsPart(parts: seq<string>, sep: string, k: nat)
    requires k < |parts|
    ensures Contains(Join(parts, sep), parts[k])
  {
    if |parts| == 1 {
      ContainsMiddle("", parts[0], "");
      assert "" + parts[0] + "" == parts[0];
    } else if k == 0 {
      ContainsMiddle("", parts[0], sep + Join(parts[1..], sep));
      assert "" + parts[0] + (sep + Join(parts[1..], sep)) == Join(parts, sep);
    } else {
      JoinContainsPart(parts[1..], sep, k - 1);
      ContainsWithin(parts[0] + sep, Join(parts[1..], sep), "", parts[k]);
      assert parts[0] + sep + Join(parts[1..], sep) + "" == Join(parts, sep);
    }
  }

  /** `s.split(sep)` for a one-character separator: never empty, and no piece
      holds the separator. */
  function Split(s: string, sep: char): (parts: seq<string>)
    ensures |parts| >= 1
    ensures forall i :: 0 <= i < |parts| ==> sep !in parts[i]
    decreases |s|
  {
    if |s| == 0 then [""]
    else
      var rest := Split(s[1..], sep);
      if s[0] == sep then [""] + rest
      else [[s[0]] + rest[0]] + rest[1..]
  }

  /** The pieces of a split, joined back with the separator, give the text. */
  lemma {:induction false} JoinOfSplit(s: string, sep: char)
    ensures Join(Split(s, sep), [sep]) == s
    decreases |s|
  {
    if |s| > 0 {
      JoinOfSplit(s[1..], sep);
      var rest := Split(s[1..], sep);
      assert s == [s[0]] + s[1..];
      if s[0] == sep {
        assert ([""] + rest)[1..] == rest;
      } else {
        var parts := [[s[0]] + rest[0]] + rest[1..];
        if |rest| > 1 {
          assert parts[1..] == rest[1..];
          assert Join(rest, [sep]) == rest[0] + [sep] + Join(rest[1..], [sep]);
          assert Join(parts, [sep]) == [s[0]] + rest[0] + [sep] + Join(rest[1..], [sep]);
        }
      }
    }
  }

  /** A word free of the separator is glued onto the first piece of whatever follows it. */
  lemma {:induction false} SplitPrefix(w: string, rest: string, sep: char)
    requires sep !in w
    ensures Split(w + rest, sep) == [w + Split(rest, sep)[0]] + Split(rest, sep)[1..]
    decreases |w|
  {
    if |w| > 0 {
      SplitPrefix(w[1..], rest, sep);
      assert (w + rest)[1..] == w[1..] + rest;
      assert (w + rest)[0] == w[0];
      assert [w[0]] + (w[1..] + Split(rest, sep)[0]) == w + Split(rest, sep)[0];
    } else {
      assert w + rest == rest;
      var parts := Split(rest, sep);
      assert w + parts[0] == parts[0];
      assert parts == [parts[0]] + parts[1..];
    }
  }

  /** Splitting a join of separator-free words gives back the words. */
  lemma {:induction false} SplitOfJoin(words: seq<string>, sep: char)
    requires |words| >= 1
    requires forall i :: 0 <= i < |words| ==> sep !in words[i]
    ensures Split(Join(words, [sep]), sep) == words
  {
    if |words| == 1 {
      SplitPrefix(words[0], "", sep);
      assert words[0] + "" == words[0];
    } else {
      var tail := Join(words[1..], [sep]);
      SplitOfJoin(words[1..], sep);
      var after := Split([sep] + tail, sep);
      assert after == [""] + words[1..] by {
        assert ([sep] + tail)[1..] == tail;
      }
      SplitPrefix(words[0], [sep] + tail, sep);
      assert Join(words, [sep]) == words[0] + ([sep] + tail);
      assert after[0] == "" && after[1..] == words[1..];
      assert words[0] + after[0] == words[0];
      assert words == [words[0]] + words[1..];
    }
  }

  // ---------------------------------------------------------------------------
  // Concatenation of template pieces
  // ---------------------------------------------------------------------------

  /** The pieces of a template literal, concatenated in order. */
  function Concat(pieces: seq<string>): string
  {
    if |pieces| == 0 then "" else pieces[0] + Concat(pieces[1..])
  }

  lemma {:induction false} ConcatAppend(a: seq<string>, b: seq<string>)
    ensures Concat(a + b) == Concat(a) + Concat(b)
  {
    if |a| > 0 {
      ConcatAppend(a[1..], b);
      assert (a + b)[1..] == a[1..] + b;
    } else {
      assert a + b == b;
    }
  }

  /** Each piece of a template shows up in its text. */
  lemma {:induction false} ConcatContainsPiece(pieces: seq<string>, k: nat)
    requires k < |pieces|
    ensures Contains(Concat(pieces), pieces[k])
  {
    var rest := Concat(pieces[1..]);
    if k == 0 {
      ContainsMiddle("", pieces[0], rest);
      assert "" + pieces[0] + rest == Concat(pieces);
    } else {
      ConcatContainsPiece(pieces[1..], k - 1);
      ContainsWithin(pieces[0], rest, "", pieces[k]);
      assert pieces[0] + rest + "" == Concat(pieces);
    }
  }

  /** The text of a template begins with its first piece. */
  lemma ConcatStartsWithFirst(pieces: seq<string>)
    requires |pieces| > 0
    ensures IsPrefix(pieces[0], Concat(pieces))
  {
  }

  /** The text of a template ends with its last piece. */
  lemma ConcatEndsWithLast(pieces: seq<string>)
    requires |pieces| > 0
    ensures IsSuffix(pieces[|pieces| - 1], Concat(pieces))
  {
    var n := |pieces|;
    assert pieces == pieces[..n - 1] + [pieces[n - 1]];
    ConcatAppend(pieces[..n - 1], [pieces[n - 1]]);
    assert Concat([pieces[n - 1]]) == pieces[n - 1];
  }
}

=== FILE: tab_navigation.dfy ===
/**
 * The tab bar on a contact's pages: the ten tabs, the link each one points to,
 * and which one is highlighted for the current path.
 */
module TabNavigation {
  import opened Strings
  import ContactSidebar

  /** A tab: its caption and its path below the contact's page (`""` for Overview). */
  datatype Tab = Tab(name: string, href: string)

  const Tabs: seq<Tab> := [
    Tab("Overview", ""),
    Tab("Information", "information"),
    Tab("Conversation", "conversation"),
    Tab("Documents", "documents"),
    Tab("Forms", "forms"),
    Tab("Workflows", "workflows"),
    Tab("Invoices", "invoices"),
    Tab("Order History", "order-history"),
    Tab("AI Follow-up Cadence", "ai-followup-cadence"),
    Tab("Notes", "notes")
  ]

  /** `isActive(tabHref)`: Overview only on the contact's page itself, any
      other tab only on its own sub-page. */
  function IsTabActive(pathname: string, contactId: string, tabHref: string): (r: bool)
    ensures r ==> ContactSidebar.IsActive(pathname, contactId)
    ensures r ==> IsPrefix(ContactSidebar.ContactPath(contactId), pathname)
  {
    var basePath := ContactSidebar.ContactPath(contactId);
    ContactSidebar.ActiveCoversSubpages(contactId, tabHref);
    ContactSidebar.ActiveImpliesAsWritten(basePath + "/" + tabHref, contactId);
    if tabHref == "" then pathname == basePath
    else pathname == basePath + "/" + tabHref
  }

  /** The link of a tab: the contact's page, or the sub-page named by the tab. */
  function TabLink(contactId: string, tabHref: string): (r: string)
    ensures IsPrefix(ContactSidebar.ContactPath(contactId), r)
    ensures tabHref == "" <==> r == ContactSidebar.ContactPath(contactId)
    ensures tabHref != "" ==>
      |r| > |ContactSidebar.ContactPath(contactId)| && r[|ContactSidebar.ContactPath(contactId)|] == '/'
    ensures tabHref != "" ==> r[|ContactSidebar.ContactPath(contactId)| + 1..] == tabHref
  {
    var base := ContactSidebar.ContactPath(contactId);
    if tabHref == "" then base else
      var r := base + "/" + tabHref;
      assert r[..|base|] == base;
      assert r[|base| + 1..] == tabHref;
      r
  }

  /** A tab is highlighted exactly on the page its own link leads to. */
  lemma ActiveIffAtLink(pathname: string, contactId: string, tabHref: string)
    ensures IsTabActive(pathname, contactId, tabHref) <==> pathname == TabLink(contactId, tabHref)
  {
  }

  /** Different hrefs give different links. */
  lemma TabLinkInjective(contactId: string, h1: string, h2: string)
    requires TabLink(contactId, h1) == TabLink(contactId, h2)
    ensures h1 == h2
  {
    var base := ContactSidebar.ContactPath(contactId);
    if h1 != "" && h2 != "" {
      assert h1 == TabLink(contactId, h1)[|base| + 1..];
    }
  }

  /** Every tab link highlights its contact in the contact list. */
  lemma TabLinkHighlightsContact(contactId: string, tabHref: string)
    ensures ContactSidebar.IsActive(TabLink(contactId, tabHref), contactId)
    ensures ContactSidebar.IsActiveAsWritten(TabLink(contactId, tabHref), contactId)
  {
    if tabHref != "" {
      ContactSidebar.ActiveCoversSubpages(contactId, tabHref);
    }
    ContactSidebar.ActiveImpliesAsWritten(TabLink(contactId, tabHref), contactId);
  }

  /** The ten tabs have pairwise different hrefs. */
  lemma TabHrefsDistinct()
    ensures forall i, j :: 0 <= i < j < |Tabs| ==> Tabs[i].href != Tabs[j].href
  {
  }

  /** For any path, at most one tab is highlighted. */
  lemma AtMostOneTabActive(pathname: string, contactId: string, i: nat, j: nat)
    requires i < |Tabs| && j < |Tabs|
    requires IsTabActive(pathname, contactId, Tabs[i].href)
    requires IsTabActive(pathname, contactId, Tabs[j].href)
    ensures i == j
  {
    ActiveIffAtLink(pathname, contactId, Tabs[i].href);
    ActiveIffAtLink(pathname, contactId, Tabs[j].href);
    TabLinkInjective(contactId, Tabs[i].href, Tabs[j].href);
    TabHrefsDistinct();
  }

  /** On each tab's own link, that tab and no other is highlighted. */
  lemma ExactlyOneTabOnLink(contactId: string, i: nat, j: nat)
    requires i < |Tabs| && j < |Tabs|
    ensures IsTabActive(TabLink(contactId, Tabs[i].href), contactId, Tabs[j].href) <==> i == j
  {
    ActiveIffAtLink(TabLink(contactId, Tabs[i].href), contactId, Tabs[j].href);
    if IsTabActive(TabLink(contactId, Tabs[i].href), contactId, Tabs[j].href) {
      TabLinkInjective(contactId, Tabs[i].href, Tabs[j].href);
      TabHrefsDistinct();
    }
  }
}

=== FILE: types.dfy ===
/**
 * The records of the contact dashboard. Dates are integer milliseconds since
 * the epoch (`Date.getTime()`); amounts and counters are integers.
 */
module Types {
  import opened Wrappers

  datatype ContactStatus = WaitingForThem | WaitingForYou | NeedsAttention

  datatype Chapter = Chapter7 | Chapter13

  datatype ConversationType = AiFollowup | ClientResponse | AttorneyMessage | System

  datatype Conversation = Conversation(
    id: string,
    contactId: string,
    kind: ConversationType,
    content: string,
    timestamp: int)

  datatype DocumentStatus = Uploaded | Missing | Pending

  datatype DocumentItem = DocumentItem(name: string, status: DocumentStatus)

  datatype Documents = Documents(required: int, uploaded: int, items: seq<DocumentItem>)

  datatype Forms = Forms(complete: bool, name: string)

  datatype Invoices = Invoices(total: int, paid: int, overdue: bool)

  datatype PendingItems = PendingItems(documents: Documents, forms: Forms, invoices: Invoices)

  /** A contact together with its case context (`ContactWithContext`). A `None`
      last response means the client has never responded. */
  datatype Contact = Contact(
    id: string,
    name: string,
    email: string,
    phone: string,
    chapter: Chapter,
    avatarColor: string,
    createdAt: int,
    conversations: seq<Conversation>,
    pendingItems: PendingItems,
    notes: seq<string>,
    lastClientResponse: Option<int>,
    followUpCount: int)

  /** A canned summary, with an escalation message for some contacts. */
  datatype MockSummary = MockSummary(summary: string, escalation: Option<string>)

  /** The property names every plain object literal inherits from
      `Object.prototype` (section 20.1.3 of ECMA-262 and its Annex B). Indexing a
      literal with one of them yields the inherited member, not `undefined`. */
  const ObjectPrototypeMembers: set<string> := {
    "constructor", "hasOwnProperty", "isPrototypeOf", "propertyIsEnumerable",
    "toLocaleString", "toString", "valueOf", "__proto__",
    "__defineGetter__", "__defineSetter__", "__lookupGetter__", "__lookupSetter__"
  }

  /** The textual form of the conversation types, as used in rendered text. */
  function ConversationTypeText(k: ConversationType): string {
    match k
    case AiFollowup => "ai-followup"
    case ClientResponse => "client-response"
    case AttorneyMessage => "attorney-message"
    case System => "system"
  }

  function ChapterText(c: Chapter): string {
    match c
    case Chapter7 => "7"
    case Chapter13 => "13"
  }
}

=== FILE: utils.dfy ===
/** Date and name helpers shared by the status engine and the contact list. */
module Utils {
  import opened Strings
  import opened Lists

  /** Milliseconds in one day: 1000 * 60 * 60 * 24. */
  const MsPerDay: int := 1000 * 60 * 60 * 24

  function Abs(x: int): nat { if x < 0 then -x else x }

  /**
   * `daysBetween(date1, date2)`: the absolute distance between two instants,
   * floored to whole days.
   */
  function DaysBetween(date1: int, date2: int): (d: nat)
    ensures d * MsPerDay <= Abs(date2 - date1) < (d + 1) * MsPerDay
  {
    Abs(date2 - date1) / MsPerDay
  }

  /** The whole-day count is the only one bracketing the distance. */
  lemma DaysBetweenUnique(date1: int, date2: int, d: nat)
    requires d * MsPerDay <= Abs(date2 - date1) < (d + 1) * MsPerDay
    ensures DaysBetween(date1, date2) == d
  {
    var e := DaysBetween(date1, date2);
    if e < d {
      MulMonotone(e + 1, d, MsPerDay);
    } else if e > d {
      MulMonotone(d + 1, e, MsPerDay);
    }
  }

  lemma MulMonotone(a: nat, b: nat, c: nat)
    requires a <= b
    ensures a * c <= b * c
  {
  }

  /** The order of the two dates does not matter. */
  lemma DaysBetweenSymmetric(date1: int, date2: int)
    ensures DaysBetween(date1, date2) == DaysBetween(date2, date1)
  {
  }

  /** An instant is zero days away from itself. */
  lemma DaysBetweenSelf(date: int)
    ensures DaysBetween(date, date) == 0
  {
  }

  /** Two instants exactly nine days apart are nine days apart. */
  lemma NineDaysApart(date: int)
    ensures DaysBetween(date, date + 9 * MsPerDay) == 9
  {
    DaysBetweenUnique(date, date + 9 * MsPerDay, 9);
  }

  /** "At least `k` whole days" is "at least `k` days' worth of milliseconds". */
  lemma AtLeastDaysIff(date1: int, date2: int, k: nat)
    ensures DaysBetween(date1, date2) >= k <==> Abs(date2 - date1) >= k * MsPerDay
  {
    var d := DaysBetween(date1, date2);
    if d >= k {
      MulMonotone(k, d, MsPerDay);
    } else {
      MulMonotone(d + 1, k, MsPerDay);
    }
  }

  // ---------------------------------------------------------------------------
  // getInitials
  // ---------------------------------------------------------------------------

  /** The first character of every part; an empty part (`n[0]` undefined) adds nothing. */
  function FirstLetters(parts: seq<string>): (r: string)
    ensures |r| <= |parts|
  {
    if |parts| == 0 then ""
    else (if |parts[0]| > 0 then [parts[0][0]] else "") + FirstLetters(parts[1..])
  }

  predicate NonEmpty(part: string) { |part| > 0 }

  /** An empty part, from a doubled, leading or trailing space, adds nothing:
      the letters are those of the non-empty parts alone. */
  lemma {:induction false} FirstLettersSkipsEmpty(parts: seq<string>)
    ensures FirstLetters(parts) == FirstLetters(Filter(NonEmpty, parts))
  {
    if |parts| > 0 {
      FirstLettersSkipsEmpty(parts[1..]);
    }
  }

  /** The initials are the upper-cased first letters of the non-empty parts,
      one per part, in order, however the words are spaced. */
  lemma InitialsOfNonEmptyParts(name: string)
    ensures var words := Filter(NonEmpty, Split(name, ' '));
      && |GetInitials(name)| == |words|
      && forall i :: 0 <= i < |words| ==>
           |words[i]| > 0 && i < |GetInitials(name)| && GetInitials(name)[i] == UpperChar(words[i][0])
  {
    var words := Filter(NonEmpty, Split(name, ' '));
    FirstLettersSkipsEmpty(Split(name, ' '));
    forall i | 0 <= i < |words|
      ensures |words[i]| > 0
    {
      assert words[i] in words;
    }
    FirstLettersOfWords(words);
  }

  /** `getInitials(name)`: upper-cased first letters of the space-separated parts. */
  function GetInitials(name: string): (r: string)
    ensures |r| <= |Split(name, ' ')|
  {
    Upper(FirstLetters(Split(name, ' ')))
  }

  /** For a name made of non-empty words separated by single spaces, the initials
      are the upper-cased first letter of each word, in order. */
  lemma InitialsOfWords(words: seq<string>)
    requires |words| >= 1
    requires forall i :: 0 <= i < |words| ==> |words[i]| > 0 && ' ' !in words[i]
    ensures |GetInitials(Join(words, " "))| == |words|
    ensures forall i :: 0 <= i < |words| ==> GetInitials(Join(words, " "))[i] == UpperChar(words[i][0])
  {
    SplitOfJoin(words, ' ');
    assert [' '] == " ";
    FirstLettersOfWords(words);
  }

  lemma {:induction false} FirstLettersOfWords(words: seq<string>)
    requires forall i :: 0 <= i < |words| ==> |words[i]| > 0
    ensures |FirstLetters(words)| == |words|
    ensures forall i :: 0 <= i < |words| ==> FirstLetters(words)[i] == words[i][0]
  {
    if |words| > 0 {
      FirstLettersOfWords(words[1..]);
    }
  }

  /** A single name gives its upper-cased first letter: "Maria" gives "M". */
  lemma InitialsOfOneWord()
    ensures GetInitials("Maria") == "M"
  {
    InitialsOfWords(["Maria"]);
    assert Join(["Maria"], " ") == "Maria";
    var r := GetInitials("Maria");
    assert r[0] == UpperChar('M') == 'M';
  }

  /** Two words: their upper-cased first letters. */
  lemma InitialsOfTwo(a: string, b: string)
    requires |a| > 0 && |b| > 0 && ' ' !in a && ' ' !in b
    ensures GetInitials(a + " " + b) == [UpperChar(a[0]), UpperChar(b[0])]
  {
    var words := [a, b];
    assert Join(words, " ") == a + " " + b by {
      assert Join(words[1..], " ") == b;
    }
    InitialsOfWords(words);
  }

  /** Three words: their upper-cased first letters. */
  lemma InitialsOfThree(a: string, b: string, c: string)
    requires |a| > 0 && |b| > 0 && |c| > 0 && ' ' !in a && ' ' !in b && ' ' !in c
    ensures GetInitials(a + " " + b + " " + c) == [UpperChar(a[0]), UpperChar(b[0]), UpperChar(c[0])]
  {
    var words := [a, b, c];
    assert Join(words, " ") == a + " " + b + " " + c by {
      assert Join(words[2..], " ") == c;
      assert Join(words[1..], " ") == b + " " + c;
    }
    InitialsOfWords(words);
  }

  /** "Maria Garcia" gives "MG". */
  lemma InitialsOfTwoWords()
    ensures GetInitials("Maria Garcia") == "MG"
  {
    InitialsOfTwo("Maria", "Garcia");
    assert "Maria" + " " + "Garcia" == "Maria Garcia";
  }

  /** "Maria Elena Garcia" gives "MEG". */
  lemma InitialsOfThreeWords()
    ensures GetInitials("Maria Elena Garcia") == "MEG"
  {
    InitialsOfThree("Maria", "Elena", "Garcia");
    assert "Maria" + " " + "Elena" + " " + "Garcia" == "Maria Elena Garcia";
  }
}

=== FILE: wrappers.dfy ===
/** The optional-value datatype used in place of JavaScript's `null` / `undefined`. */
module Wrappers {

  datatype Option<+T> = None | Some(value: T) {

    /** Returns the value held in Some, or `default` when None. */
    function GetOr(default: T): T {
      match this
      case Some(v) => v
      case None => default
    }
  }
}
